=== FILE: README.md ===
# jquery.mentionsInput: a verified model of the component core

`MentionsInput` turns a text field into one that understands mentions.
The host registers triggers such as `@` with `add`, each with a `fetch`
callback and two formatters. While the user types, the component does four things:

- it finds the trigger closest to the caret and takes the text after it as the query;
- it asks the trigger's `fetch` for candidates and lists them;
- when one is picked, it splices the candidate's value into the text and records the mention;
- it keeps two derived strings up to date: `_val`, the text with every mention value replaced by its syntax token (`@[value](id)` by default), and an overlay whose markup highlights the mentions.

The model is written in Dafny. The component is an immutable `State` record. Each handler and API call is a pure function from state to state:

| JavaScript | Dafny |
|---|---|
| `add` | `Add` |
| `updateValues` | `UpdateValues` |
| `updateMentions` | `UpdateMentions` |
| `addMention` | `AddMention` |
| `_add` | `Commit` |
| `_hasMention` | `HasMention` |
| `insert` | `Insert` |
| `_onSuggestionClick` | `OnSuggestionClick` |
| `_onInput` | `OnInput` |
| `_onKeyDown` | `OnKeyDown` |
| `hideSuggestions` | `Hide` |
| `selectItem` | `SelectItem` |
| `populateDropdown` | `PopulateDropdown` |
| `search` | `Search` |
| `reset` | `Reset` |
| `val` | `Val` |
| `getMentions` | `GetMentions` |
| `setMentions` | `SetMentions` |

The default formatters are `DefaultSyntax` and `DefaultHighlight`.

The browser side becomes data:

- **Field and selection.** The field's value and selection are fields of the state.
- **Deferred calls.** Calls made with `_.defer` are queued in `tasks` and run by `RunDeferred`.
- **Fetch calls.** Each call of a trigger's `fetch` is logged in `requests`. Its callback is a separate transition, `FetchCallback`.
- **Events and errors.** Fired events (`mentionadd`, `mentionremove`, `mentionreset`) are appended to `events`. So is every `TypeError` a handler throws, as `Uncaught`. A handler that throws stops where JavaScript stops.
- **All inputs.** `Machine.Next` gathers every input the page, the user or the host can deliver into a single step relation.

The JavaScript string primitives the code relies on are modelled with their edge cases:

- `indexOf` with a clamped start;
- `lastIndexOf`;
- `substr`, `slice` and `charAt`;
- `split(...).join(...)`;
- ASCII `toLowerCase`;
- underscore's `_.escape`.

Modules, in dependency order:

- `Wrappers`: `Option`, `Result`.
- `JsString`: the string primitives, and the algebra of split/join.
- `Escape`: `_.escape` and a decoder that inverts it.
- `Mentions`: the mention record, the trigger configuration, the default formatters, the `_hasMention` test and list pruning.
- `Sync`: the two replacement passes of `updateValues`.
- `Detect`: the trigger search of `_onInput`.
- `Component`: the state and every handler.
- `Properties`: lemmas relating several handlers.
- `Machine`: the step relation and the invariants it preserves.
- `Scenarios`: the behaviours the repository's tests exercise, proved on the model.

### Behaviour that follows the code

The model follows the code wherever the component's documentation reads differently:

- **Every occurrence is replaced.** Mention values are replaced at every occurrence (`split(value).join(token)`), not only the first.
- **The query is not trimmed.**
- **Candidates are not filtered.** Results already mentioned are listed again.
- **`reset` fires once per trigger.** It fires one `mentionreset` per registered trigger.
- **No `<br>` conversion.** The overlay is the encoded text plus a trailing newline; newlines are not turned into `<br>`.

### Quirks of the code, kept as written

- **No match in `addMention`.** When `addMention` finds no occurrence of trigger + query, `indexOf` returns -1. `substr(0, -1)` is then empty and `substr(|query|)` is the rest, so the value and a space are put at the very start. The first `|query|` characters are dropped. `MentionSplice` states this case exactly.
- **The query span assumes a one-character trigger.** The span cut out is `|query| + 1` characters long, starting at the trigger. With a longer trigger, the last `|trigger| - 1` characters of trigger + query stay in the text: for trigger `@@`, query `s` and text `x @@s`, the `@@` goes and the `s` stays.
- **Only the first character is searched for.** `_onInput` hands `charAt(index)`, one character, to `search` as the trigger.
- **An empty mention value.** `split("")` cuts the text into characters, so the token is put between every two characters. Such a mention is pruned on the next input event.

## Model

| member | source | states |
|---|---|---|
| JsString.IndexOf | jquery.mentionsInput.js:293 | `indexOf(t, from)` returns the least match at or after the clamped start, or -1 when no match lies there |
| JsString.Contains | jquery.mentionsInput.js:278 | `indexOf(t) != -1` holds exactly when `t` occurs somewhere |
| JsString.LastIndexOf | jquery.mentionsInput.js:356-366 | `lastIndexOf(t, from)` returns the greatest match at or before the clamped start, or -1 when none lies there |
| JsString.Substr | jquery.mentionsInput.js:299-300 | `substr(start, length)` is the slice from `start`, capped by the clamped length; a non-positive length gives "" |
| JsString.Slice | jquery.mentionsInput.js:369 | `slice(start)` is the suffix from `start`, or "" past the end |
| JsString.CharAt | jquery.mentionsInput.js:361-362 | `charAt(i)` is non-empty exactly when `i` is in range, and then it is the character at `i` |
| JsString.SplitJoin | jquery.mentionsInput.js:253 | joining a split with its own separator gives the original string back |
| JsString.SplitPartsFree | jquery.mentionsInput.js:253 | no part of a split on a non-empty separator contains the separator |
| JsString.SplitFromJoin | jquery.mentionsInput.js:253 | the scan from any position reassembles the suffix it scanned |
| JsString.ReplaceAllAbsent | jquery.mentionsInput.js:253 | replacing a string that does not occur leaves the text unchanged |
| JsString.ReplaceAllIntroduces | jquery.mentionsInput.js:253 | once a non-empty string occurs, its replacement occurs in the result |
| JsString.ReplaceAllSelf | jquery.mentionsInput.js:253 | replacing a string by itself leaves the text unchanged |
| JsString.ReplaceAllOnce | jquery.mentionsInput.js:253 | with a single occurrence after `pre`, the result is `pre + replacement + post` |
| JsString.OnlyMatch | jquery.mentionsInput.js:253 | a value occurs in `pre + value + post` only right after `pre` when `pre` lacks its first character and none of its next few characters, as many as `post` holds, repeats that first character |
| JsString.ReplaceAllParts | jquery.mentionsInput.js:253 | `split(t).join(r)` cuts the text into parts free of `t` that rejoin with `t` to the text, and joins those same parts with `r` |
| JsString.ToLower | jquery.mentionsInput.js:419 | lower-casing keeps the length, leaves no upper-case ASCII letter, and changes only those letters, each by +32 |
| JsString.NatToStringValue | jquery.mentionsInput.js:500 | the decimal rendering of a numeric id reads back as that number |
| Escape.HtmlEncode | jquery.mentionsInput.js:39-41 | the encoded text contains no `<`, `>`, double quote, single quote or backtick, and is at least as long as the input |
| Escape.DecodeEncode | jquery.mentionsInput.js:39-41 | decoding the encoded text gives the original text back, so escaping loses nothing |
| Mentions.DefaultSyntax | jquery.mentionsInput.js:34 | the default token is `@[` + value + `](` + id + `)`: it starts with `@[`, holds the value at positions 2 onwards, and ends with `](` + id + `)`; it is five characters longer than value and id together, and a `null` or `undefined` id prints as nothing |
| Mentions.DefaultHighlight | jquery.mentionsInput.js:35 | the default markup is `<strong>` + value + `</strong>`: it opens with `<strong>`, holds the value at positions 8 onwards, closes with `</strong>`, and adds 17 characters of tags |
| Mentions.Configure | jquery.mentionsInput.js:74 | a given formatter overrides the default; a missing one falls back to the default |
| Mentions.AppendUnique | jquery.mentionsInput.js:308-310 | when a listed mention has the value the list is returned unchanged; otherwise the result is the list followed by the mention itself; distinct values stay distinct |
| Mentions.AppendUniqueIdempotent | jquery.mentionsInput.js:325-329 | adding the same mention twice is the same as adding it once |
| Mentions.FindMention | jquery.mentionsInput.js:325-329 | `_.find` returns a mention exactly when one with the same value is listed, and then it is the first listed mention with that value |
| Mentions.PruneList | jquery.mentionsInput.js:276-281 | the result is an order-preserving subsequence that holds exactly the mentions with a non-empty value still found in the text, each kept mention as many times as the list held it; it is the list itself when nothing was dropped |
| Mentions.PruneIdempotent | jquery.mentionsInput.js:277-279 | pruning twice against the same text is pruning once |
| Mentions.SubsequenceDistinct | jquery.mentionsInput.js:277-279 | a subsequence of a list with distinct values has distinct values |
| Mentions.PruneKeepsDistinct | jquery.mentionsInput.js:277-279 | pruning never creates duplicate values |
| Sync.Entries | jquery.mentionsInput.js:250-251 | the visiting order holds exactly the listed mentions of the visited keys, each under its own trigger; with no mentions there is nothing to visit |
| Sync.EntriesConcat | jquery.mentionsInput.js:250-251 | the outer loop visits keys in order: the entries of `a + b` are those of `a` followed by those of `b` |
| Sync.EntriesOneKey | jquery.mentionsInput.js:251 | the entries of one key are its list in list order |
| Sync.EntriesSingle | jquery.mentionsInput.js:250-251 | one key holding one mention gives exactly that one entry |
| Sync.UnregisteredEntry | jquery.mentionsInput.js:250-252 | some visited entry has an unregistered trigger exactly when some key with a non-empty list is unregistered |
| Sync.SyntaxPassConcat | jquery.mentionsInput.js:250-255 | the syntax loop over `a + b` is the loop over `a` followed by the loop over `b` on its result |
| Sync.SyntaxPassSingle | jquery.mentionsInput.js:252-253 | one entry replaces every occurrence of its value by its syntax token |
| Sync.HighlightPassConcat | jquery.mentionsInput.js:258-266 | the highlight loop over `a + b` is the loop over `a` followed by the loop over `b` on its result |
| Sync.HighlightPassSingle | jquery.mentionsInput.js:260-264 | one entry replaces every occurrence of its escaped syntax token by its highlight markup of the escaped value |
| Sync.MissingConfig | jquery.mentionsInput.js:252 | reports a trigger exactly when some visited mention's trigger is unregistered, and that trigger is an unregistered one |
| Sync.Render | jquery.mentionsInput.js:248-271 | `updateValues` fails exactly when some trigger with a non-empty list is unregistered, and then the error names such a trigger; on success the overlay ends with a newline |
| Sync.RenderWithoutMentions | jquery.mentionsInput.js:248-271 | with no mentions, `_val` is the raw text and the overlay decodes back to the raw text |
| Sync.SyntaxPassAbsent | jquery.mentionsInput.js:250-255 | mentions whose values occur nowhere leave the text unchanged |
| Sync.RenderOneMention | jquery.mentionsInput.js:250-255 | with one listed mention, `_val` is the text with every occurrence of the value replaced by its token, and the token occurs when the value did |
| Sync.RenderSingleOccurrence | jquery.mentionsInput.js:250-255 | a value that occurs exactly once becomes its token in place, with the text around it unchanged |
| Sync.EncodeConcat | jquery.mentionsInput.js:257 | escaping distributes over concatenation |
| Sync.EncodeFields | jquery.mentionsInput.js:261 | escaping a token built from plain delimiters escapes only its fields |
| Sync.DefaultTokenEncoded | jquery.mentionsInput.js:261 | the encoded default token is `@[` + encoded value + `](` + encoded id + `)`, the string the highlight pass looks for |
| Detect.ClosestTrigger | jquery.mentionsInput.js:356-360 | the result is the greatest `lastIndexOf` over the registered triggers, or -1 when there is none |
| Detect.DetectTrigger | jquery.mentionsInput.js:360-366 | a trigger after whitespace, `(`, `[` or at the start is taken at the closest position; otherwise the result is the previous occurrence of the last search's trigger `current` before that position (or -1), with no occurrence of `current` in between |
| Detect.QueryAfter | jquery.mentionsInput.js:369 | the query is the text after the trigger position, so the text before the caret is the text up to the trigger followed by the query |
| Component.Init | jquery.mentionsInput.js:59-70 | a new component has no triggers and no mentions, a hidden list, no events and an empty query, and is valid |
| Component.AppendKey | jquery.mentionsInput.js:74-75 | assigning a new property appends its key at the end; assigning an existing one leaves the key order as it was; keys stay distinct |
| Component.Add | jquery.mentionsInput.js:73-76 | registers the trigger with the configured settings and an empty list, appending it to both key orders unless already there; every other trigger keeps its settings and its list, no other trigger appears, and nothing outside the registry changes; validity and configuration are preserved |
| Component.UpdateValues | jquery.mentionsInput.js:248-271 | on success only `_val` and the overlay change, and they are in sync with the text; with every listed trigger registered it cannot fail; failure names an unregistered trigger |
| Component.PrunedMentions | jquery.mentionsInput.js:275-280 | every list is pruned against the text, and no trigger is added or lost |
| Component.UpdateMentions | jquery.mentionsInput.js:273-288 | each list keeps exactly the mentions whose value is non-empty and still in the text, in order and with their multiplicity; events are only appended; nothing else changes |
| Component.Hide | jquery.mentionsInput.js:428-433 | the list is hidden with no items and no active item; the stored suggestions and everything else are kept |
| Component.Commit | jquery.mentionsInput.js:307-323 | `_add` throws when the trigger has no list; otherwise it appends the mention unless its value is listed, clears the query, hides the list, sets the text, syncs `_val`, places the caret and fires `mentionadd` with the whole list |
| Component.AddMention | jquery.mentionsInput.js:290-305 | throws when the trigger has no list; otherwise the trigger's list becomes the list with the mention appended unless its value is listed, every other list is kept, the query is cleared, the list hidden and the spliced text put in the field; the registry order, stored suggestions, deferred calls and requests never change; with the trigger registered it places the caret after the splice, fires `mentionadd` with the list and leaves `_val` in sync |
| Component.Insert | jquery.mentionsInput.js:331-340 | throws when the trigger has no list; otherwise the value and a space go in at the clamped caret with the text on both sides kept, the trigger's list gets the mention appended unless its value is listed, every other list is kept, the query is cleared and the list hidden; the registry order, stored suggestions, deferred calls and requests never change; with the trigger registered the caret lands after the space, `mentionadd` fires with the list and `_val` is in sync |
| Component.MentionSplice | jquery.mentionsInput.js:290-305 | with a one-character trigger found at `i`, `trigger + query` is replaced by the value and a space, with the caret after the space; when nothing is found the value goes first and as many leading characters as the query has are lost |
| Component.SpliceParts | jquery.mentionsInput.js:301-302 | the new text is `start + value + " " + end`, with the caret after the space and the value found right after `start` |
| Component.InsertSplice | jquery.mentionsInput.js:331-340 | the value and a space are inserted at the clamped caret, with the text on both sides kept and the caret after the space |
| Component.OnSuggestionClick | jquery.mentionsInput.js:342-347 | a click on a known uid commits its suggestion into the current trigger's list with the `addMention` splice, clears the query, hides the list and, for a registered trigger, fires `mentionadd` and syncs `_val`; an unknown uid throws |
| Component.OnInput | jquery.mentionsInput.js:349-372 | `_onInput` renders `_val` and the overlay from the text and the lists as they were before pruning, then prunes; when a trigger is detected, the text after it becomes the query and one search is queued; otherwise the query and tasks are unchanged; nothing else changes, in particular not the current trigger, the field, the selection, the dropdown or the requests; a render failure throws before anything changes |
| Component.Search | jquery.mentionsInput.js:524-533 | a query shorter than `minChars` hides the list; otherwise the trigger's `fetch` is called exactly once, or the call throws for an unregistered trigger |
| Component.AsSuggestion | jquery.mentionsInput.js:502 | a stored suggestion takes its name as its value and keeps its id |
| Component.Uids | jquery.mentionsInput.js:500 | result `i` is listed under `trigger + ":" + (id or name)` |
| Component.StoreSuggestions | jquery.mentionsInput.js:499-502 | the stored uids are the old ones plus one per result |
| Component.StoreSuggestionsKeeps | jquery.mentionsInput.js:499-502 | a uid no result produces keeps its old suggestion |
| Component.StoreSuggestionsLastWins | jquery.mentionsInput.js:499-502 | a uid holds the suggestion of the last result that produced it |
| Component.PopulateDropdown | jquery.mentionsInput.js:488-522 | no results hides the list; otherwise one item per result, the first one active, and the list visible |
| Component.FetchCallback | jquery.mentionsInput.js:526-529 | the callback records the request's trigger as current; no results hide the list; otherwise the list shows one item per result with the first active and the results stored as suggestions; nothing but the current trigger and the list changes |
| Component.OnKeyDown | jquery.mentionsInput.js:374-426 | Backspace defers a hide; with the list hidden every key passes through; Down activates the next item (the first when none is active) and Up the previous one, changing nothing else, and Up with no active item throws; Return/Tab press the active item unless Shift or Alt, returning false when the press completes and nothing (`undefined`) when it throws; Esc hides; Space with no active item or an unknown uid throws, and otherwise presses the active item exactly when its value equals trigger + query ignoring case, returning false only when that press completes, and leaves everything unchanged when the value differs; any other key passes through |
| Component.PressActive | jquery.mentionsInput.js:407 | a `mousedown` on the active item is a click on its uid, which lists its suggestion and hides the list; an unknown uid or a trigger without a list throws; with a registered trigger in a registered store it completes and fires `mentionadd`; with no active item nothing changes |
| Component.SelectItem | jquery.mentionsInput.js:458-462 | the given item becomes the active one; the items, suggestions, visibility and the rest of the state are kept |
| Component.ResetEvents | jquery.mentionsInput.js:543-545 | one `mentionreset` per registered trigger, in registration order |
| Component.Reset | jquery.mentionsInput.js:535-546 | the text and every list are emptied and the selection moved to 0 while triggers, key order, dropdown, query, deferred calls and requests stay as they were; `_val` is empty, the overlay is a newline, and one `mentionreset` fires per trigger |
| Component.EmptyRender | jquery.mentionsInput.js:536-542 | once the field and every list are emptied, `updateValues` cannot throw: `_val` becomes "" and the overlay a lone newline |
| Component.Val | jquery.mentionsInput.js:548-550 | `val()` is `_val` unless it is empty, in which case it is the raw text |
| Component.GetMentions | jquery.mentionsInput.js:552-554 | a non-empty trigger returns its list (or undefined); a missing or empty trigger returns the whole map |
| Component.SetMentions | jquery.mentionsInput.js:556-562 | the trigger's list is replaced, its key appended if new, and the other lists kept; only the lists, `_val`, the overlay and the events change; with registered triggers `_val` is in sync and `mentionadd` fires exactly when the list is non-empty |
| Component.RunDeferred | jquery.mentionsInput.js:370 | the oldest deferred call runs first: a hide, or the queued search |
| Properties.RemovalEventsSpec | jquery.mentionsInput.js:283-286 | a `mentionremove` event is fired exactly for each list whose length changed, carrying its new contents |
| Properties.UpdateMentionsFires | jquery.mentionsInput.js:273-288 | `updateMentions` fires `mentionremove` for a trigger exactly when one of its mentions is empty or gone from the text, and fires nothing else |
| Properties.UpdateMentionsIdempotent | jquery.mentionsInput.js:273-288 | a second `updateMentions` changes nothing and fires nothing |
| Properties.PrunedMentionsIdempotent | jquery.mentionsInput.js:275-280 | pruning every list twice against one text is pruning once |
| Properties.UpdateMentionsKeepsDistinct | jquery.mentionsInput.js:273-288 | pruning keeps every list free of duplicate values |
| Properties.CommitTwice | jquery.mentionsInput.js:307-310 | committing the same mention again leaves the lists as the first commit left them |
| Properties.PruneSurvives | jquery.mentionsInput.js:277-279 | a listed value still present in the text is still listed after pruning |
| Properties.PruneKeepsValue | jquery.mentionsInput.js:277-279 | a list that holds a value still present in the text holds it after `_.reject` |
| Properties.CommittedSurvives | jquery.mentionsInput.js:307-323 | a committed mention whose value is in the new text is listed, and survives the next prune |
| Properties.AddedMentionSurvives | jquery.mentionsInput.js:290-305 | a mention added with `addMention` survives the next prune |
| Properties.InsertedMentionSurvives | jquery.mentionsInput.js:331-340 | a mention added with `insert` survives the next prune |
| Properties.ResetClears | jquery.mentionsInput.js:535-554 | after `reset`, `getMentions(trigger)` is the empty list and `val()` is empty |
| Properties.SetThenGet | jquery.mentionsInput.js:552-562 | `getMentions(trigger)` reads back what `setMentions(trigger, …)` stored |
| Properties.DownThenUp | jquery.mentionsInput.js:386-402 | Down followed by Up returns to the same active item when there is a next one |
| Properties.UpThenDown | jquery.mentionsInput.js:386-402 | Up followed by Down returns to the same active item when there is a previous one |
| Properties.EscapeThenPassThrough | jquery.mentionsInput.js:381-415 | once Esc has closed the list, every key but Backspace passes through unchanged |
| Properties.DetectedTriggerRegistered | jquery.mentionsInput.js:356-366 | with one-character triggers, a detected position carries a registered trigger character |
| Properties.ClosestTriggerChar | jquery.mentionsInput.js:360-361 | the character at the closest trigger position is a registered trigger |
| Properties.InputSearchesRegistered | jquery.mentionsInput.js:368-371 | with one-character registered triggers, the search `_onInput` queues is for a registered trigger |
| Properties.CommitIntoEmpty | jquery.mentionsInput.js:307-323 | committing into an empty list lists just that mention and fires `mentionadd` with it |
| Properties.CommitIntoOnlyList | jquery.mentionsInput.js:307-310 | with a single empty list, the commit leaves exactly that mention listed |
| Properties.PruneEmptyText | jquery.mentionsInput.js:277-279 | no mention survives an empty text |
| Properties.PruneSingleEmpty | jquery.mentionsInput.js:275-280 | with a single trigger, an empty text prunes its list to the empty list |
| Properties.RemovalSingle | jquery.mentionsInput.js:283-286 | a single list that shrank to nothing fires exactly one `mentionremove` with the empty list |
| Properties.ClearSingleList | jquery.mentionsInput.js:273-288 | emptying the field with one non-empty list fires `mentionremove` with the empty list |
| Properties.CommitRendersToken | jquery.mentionsInput.js:307-323 | after the commit, `_val` is the new text with the value's single occurrence replaced by its token |
| Machine.NextPreservesValid | jquery.mentionsInput.js:349-562 | every step keeps the selection inside the text, the registry and lists consistent and the suggestion list coherent |
| Machine.KeyDownValid | jquery.mentionsInput.js:374-426 | a keydown keeps the state valid |
| Machine.InputValid | jquery.mentionsInput.js:349-372 | an input event keeps the state valid |
| Machine.PopulateValid | jquery.mentionsInput.js:488-522 | populating keeps every listed uid stored and the active item in range |
| Machine.RegisteredRenders | jquery.mentionsInput.js:248-271 | when every list belongs to a registered trigger, `updateValues` cannot throw |
| Machine.NextPreservesRegistered | jquery.mentionsInput.js:73-562 | every step except `setMentions` on an unregistered trigger keeps every list registered, so rendering never throws |
| Machine.NextPreservesNoDuplicates | jquery.mentionsInput.js:307-329 | no step creates two mentions with the same value in one list, as long as `setMentions` is given distinct values |
| Machine.RunDeferredKeepsStore | jquery.mentionsInput.js:370-377 | deferred calls never touch the registry or the lists |
| Scenarios.Mounted | test/test.js:58-69 | a component with one host-fetch trigger registered is valid, empty and quiet |
| Scenarios.InputWithoutMentions | jquery.mentionsInput.js:349-354 | with nothing listed, `_onInput` renders without failing and leaves the lists and events as they were |
| Scenarios.TriggerAfterSpace | jquery.mentionsInput.js:360-366 | a trigger preceded by a space is detected at its own position |
| Scenarios.GluedTriggerFallsBack | jquery.mentionsInput.js:362-366 | a `#` glued to a word falls back to the last search's trigger `@`, and with no `@` before it nothing is detected |
| Scenarios.TypedQuery | test/test.js:58-93 | typing `hello @s` sets the query to `s` and queues a search for `s` with trigger `@` |
| Scenarios.SearchForS | test/test.js:64-67 | the deferred search calls the host `fetch` with query `s` |
| Scenarios.ListedSponge | test/test.js:58-93 | the answer lists the one result under uid `@:7`, active and visible, with its name as value |
| Scenarios.SpliceHello | test/test.js:144-177 | picking after `hello @s` replaces `@s` by the name and a space, with the caret at 28 |
| Scenarios.SpongeToken | jquery.mentionsInput.js:34 | the default token of the picked mention is `@[Spongebob Squarepants](7)` |
| Scenarios.TokenOf | jquery.mentionsInput.js:34 | the default token of a mention whose id prints as `id` |
| Scenarios.ClickSplices | test/test.js:144-177 | a click on `@:7` commits the mention into `hello Spongebob Squarepants ` |
| Scenarios.CommitSponge | test/test.js:144-177 | that commit lists the mention, fires `mentionadd` with `[mention]`, and sets `_val` to the line with the token |
| Scenarios.ClickSponge | test/test.js:144-177 | the click fires `mentionadd` with the mention whose value is its name, and `val()` is `hello @[Spongebob Squarepants](7) ` |
| Scenarios.ClearAfterMention | test/test.js:179-214 | emptying the field after that fires `mentionremove` with the empty list |
| Scenarios.EmptyQueryTyped | test/test.js:95-133 | typing `hello :` makes the empty text after `:` the query |
| Scenarios.EmptyQuerySearched | test/test.js:95-133 | with `minChars: 0` that empty query reaches the host `fetch` |
| Scenarios.ResetFiresOnce | test/test.js:216-228 | `reset` fires `mentionreset` once for the one registered trigger |
| Scenarios.SetMentionsFires | test/test.js:231-248 | `setMentions` fires `mentionadd` with the collection it was given |

## Left out

- DOM work (wrapper, overlay layout, copied styles, the caret calculator, `showSuggestions` positioning, `getTriggerCharOffset`, scroll syncing, focus) is left out. It has no effect on the state the model keeps.
- Rendering of suggestion items (`suggestionItem` template, icons) is left out. Only the item order, the uids and the active item are kept.
- The timing of `_.defer` and of host `fetch` callbacks is not modelled. Deferred calls run in FIFO order, one per `Defer` step. A callback may arrive any number of times, in any order, by an `Answer` step.
- The default `fetch` is `$.noop`, and its callback never runs. A request records this in `answered`; the host's own `fetch` body is not modelled.
- Strings are sequences of Dafny characters, not UTF-16 code units. Surrogate pairs are not modelled.
- `toLowerCase` is modelled for ASCII letters only.
- `_.escape` is modelled with the six-character table of underscore 1.7 and later. The underscore version is not pinned by the code.
- Ids are `null`/`undefined`, integers or strings. Fractional numbers and objects are not modelled.
- A mention object with no `id` property at all is not modelled. The default syntax template reads `id` inside `with(obj||{})`, so such a mention makes `updateValues` throw a `ReferenceError`; the model treats the id as present and `null` or `undefined`, which prints as nothing.
- The rendering of negative numeric ids is not proved to round-trip; only natural numbers are.
- JavaScript object key order for integer-like keys is not modelled. Keys are kept in insertion order.
- Object aliasing between `this.mentions[trigger]` and arrays the host passed to `setMentions` is not modelled. Lists are values.
- A mention's `value` is always a string. Host mentions with no `value`, which `setMentions` and `insert` accept, are not modelled: for them `split(undefined)` leaves the text unchanged, `insert` puts the literal `undefined` into the field, and the next prune drops them.
- `_.compact` in `updateMentions` is left out: lists never hold `null` here.
- Firefox's `selectionEnd` quirk, `keypress` handling and the examples under `docs/` are not part of this model.
- Component.MentionSplice: for triggers longer than one character, the contract states only the caret and that the value is placed before it, because the source's span arithmetic assumes one character.
- Properties.ClosestTriggerChar: requires one-character triggers, because it reads the trigger at the found position with `charAt`; a longer trigger is found by `lastIndexOf` but only its first character is read.
- Properties.DetectedTriggerRegistered: requires one-character triggers, because `charAt` hands only one character to `search`.
- Properties.InputSearchesRegistered: requires one-character registered triggers, for the same reason.
- Machine.NextPreservesRegistered: excludes `setMentions` on a trigger that was never added. With a non-empty list that call makes every later render throw, which the model shows as `Uncaught`.
- Detect.ClosestTrigger: with no trigger registered, JavaScript's `Math.max()` is `-Infinity`. The model uses -1, which every later comparison treats the same.

=== FILE: component.dfy ===
/**
  The `MentionsInput` component as an immutable state record with one pure
  function per handler and API call. DOM work is reduced to what it
  observably stores: the field's text and selection, the overlay markup and
  the suggestion list (its items, active item and visibility). Deferred
  calls are queued in `tasks`; calls to a trigger's host `fetch` are logged
  in `requests`, and their callbacks arrive later as separate transitions.
  Events fired on the input, and errors a handler throws, are appended to
  `events`.
 */
module Component {
  import opened Wrappers
  import opened JsString
  import opened Mentions
  import opened Sync
  import opened Detect

  // Key codes the keydown handler reacts to.
  const KeyBackspace := 8
  const KeyTab := 9
  const KeyReturn := 13
  const KeyEsc := 27
  const KeySpace := 32
  const KeyUp := 38
  const KeyDown := 40

  /** The `minChars` setting when none is given. */
  const DefaultMinChars := 1

  /** A `TypeError` a handler throws when it reads through an `undefined` value. */
  datatype Fault =
    | NoTriggerConfig(trigger: string)  // `this.triggers[trigger]` is undefined
    | NoMentionList(trigger: string)    // `this.mentions[trigger]` is undefined
    | NoActiveItem                      // `this.$activeItem` is null
    | NoSuggestion(uid: string)         // `this.suggestions[uid]` is undefined

  /** What the host observes: the custom events, and uncaught errors. */
  datatype Event =
    | MentionAdd(mentions: seq<Mention>, trigger: string)
    | MentionRemove(mentions: seq<Mention>, trigger: string)
    | MentionReset(trigger: string)
    | Uncaught(fault: Fault)

  /** Work scheduled with `_.defer`. */
  datatype Task = DeferredHide | DeferredSearch(query: string, trigger: string)

  /**
    A call of a trigger's `fetch(query, callback)`; `answered` tells whether
    that `fetch` is the host's, which may call back.
   */
  datatype Request = Request(query: string, trigger: string, answered: bool)

  datatype Key = Key(code: int, shift: bool, alt: bool)

  /**
    The trigger registry and the mention lists. The key sequences give the
    iteration order of the two JavaScript objects (insertion order).
   */
  datatype Store = Store(
    triggerKeys: seq<string>,
    triggers: map<string, TriggerConfig>,
    mentionKeys: seq<string>,
    mentions: map<string, seq<Mention>>)

  /**
    The suggestion list: `this.suggestions` (uid to mention, never cleared),
    the uids of the rendered items in order, the active item, visibility.
   */
  datatype Dropdown = Dropdown(
    suggestions: map<string, Mention>,
    items: seq<string>,
    active: Option<nat>,
    visible: bool)

  datatype State = State(
    minChars: int,
    text: string,             // the field's value
    selStart: nat,            // selectionStart
    selEnd: nat,              // selectionEnd
    store: Store,
    val: string,              // this._val, "" until first computed
    overlay: string,          // the overlay's inner HTML
    query: string,            // this.currentDataQuery
    currentTrigger: Option<string>,
    list: Dropdown,
    tasks: seq<Task>,
    requests: seq<Request>,
    events: seq<Event>)

  predicate Distinct<T(==)>(s: seq<T>) {
    forall i, j :: 0 <= i < j < |s| ==> s[i] != s[j]
  }

  ghost predicate StoreValid(s: Store) {
    && Distinct(s.triggerKeys)
    && (forall k :: k in s.triggerKeys <==> k in s.triggers)
    && Distinct(s.mentionKeys)
    && (forall k :: k in s.mentionKeys <==> k in s.mentions)
    && (forall k :: k in s.triggers ==> k in s.mentions)
  }

  /** The list is shown exactly when an item is active, and then the active item exists. */
  ghost predicate DropdownValid(d: Dropdown) {
    && (d.visible <==> d.active.Some?)
    && (d.visible ==> d.active.value < |d.items|)
    && (!d.visible ==> d.items == [])
    && (forall u :: u in d.items ==> u in d.suggestions)
  }

  ghost predicate Valid(st: State) {
    && st.selStart <= st.selEnd <= |st.text|
    && StoreValid(st.store)
    && DropdownValid(st.list)
  }

  /** Every listed mention's trigger is registered, so `updateValues` cannot throw. */
  ghost predicate Configured(s: Store) {
    forall k :: k in s.mentions && s.mentions[k] != [] ==> k in s.triggers
  }

  /** `_val` and the overlay are what `updateValues` derives from the current text and lists. */
  ghost predicate InSync(st: State) {
    Render(st.text, st.store.mentionKeys, st.store.mentions, st.store.triggers) == Success(Rendered(st.val, st.overlay))
  }

  /** A handler stops at a thrown error; the error is logged. */
  function Throw(st: State, f: Fault): State {
    st.(events := st.events + [Uncaught(f)])
  }

  /** Whether a handler run from `before` ended by throwing: its last new event is an `Uncaught`. */
  predicate Threw(before: State, after: State) {
    |after.events| > |before.events| && after.events[|after.events| - 1].Uncaught?
  }

  /** Assigning a new property appends its key; assigning an existing one keeps the order. */
  function AppendKey(keys: seq<string>, k: string): (r: seq<string>)
    ensures forall x :: x in r <==> x in keys || x == k
    ensures Distinct(keys) ==> Distinct(r)
    ensures k in keys ==> r == keys
    ensures k !in keys ==> r == keys + [k]
  {
    if k in keys then keys else keys + [k]
  }

  /** `this.currentTrigger` where JavaScript turns it into a string. */
  function CurrentTriggerText(st: State): string {
    match st.currentTrigger
    case Some(t) => t
    case None => "undefined"
  }

  /** The constructor, for a field holding `text` with the given selection. */
  function Init(text: string, selStart: nat, selEnd: nat, minChars: int): (st: State)
    requires selStart <= selEnd <= |text|
    ensures Valid(st)
    ensures st.text == text && st.store.triggers == map[] && st.store.mentions == map[]
    ensures !st.list.visible && st.events == [] && st.query == []
  {
    State(minChars, text, selStart, selEnd, Store([], map[], [], map[]), "", "", "", None,
          Dropdown(map[], [], None, false), [], [], [])
  }

  /** `add(trigger, settings)`: (re-)register a trigger; its mention list starts empty. */
  function Add(st: State, trigger: string, settings: TriggerSettings): (r: State)
    ensures trigger in r.store.triggers && r.store.triggers[trigger] == Configure(settings)
    ensures trigger in r.store.mentions && r.store.mentions[trigger] == []
    ensures forall k :: k != trigger ==> (k in r.store.mentions <==> k in st.store.mentions)
    ensures forall k :: k != trigger && k in st.store.mentions ==> r.store.mentions[k] == st.store.mentions[k]
    ensures forall k :: k != trigger && k in st.store.triggers ==> k in r.store.triggers && r.store.triggers[k] == st.store.triggers[k]
    ensures forall k :: k in r.store.triggers ==> k == trigger || k in st.store.triggers
    ensures r == st.(store := r.store)
    ensures r.store.triggerKeys == AppendKey(st.store.triggerKeys, trigger)
    ensures r.store.mentionKeys == AppendKey(st.store.mentionKeys, trigger)
    ensures r.text == st.text && r.events == st.events && r.list == st.list
    ensures StoreValid(st.store) ==> StoreValid(r.store)
    ensures Configured(st.store) ==> Configured(r.store)
  {
    st.(store := Store(
      AppendKey(st.store.triggerKeys, trigger),
      st.store.triggers[trigger := Configure(settings)],
      AppendKey(st.store.mentionKeys, trigger),
      st.store.mentions[trigger := []]))
  }

  /** `updateValues`: recompute `_val` and the overlay, or throw before changing anything. */
  function UpdateValues(st: State): (r: Result<State, Fault>)
    ensures r.Success? ==> r.value == st.(val := r.value.val, overlay := r.value.overlay) && InSync(r.value)
    ensures Configured(st.store) ==> r.Success?
    ensures r.Failure? ==> r.error.NoTriggerConfig? && r.error.trigger !in st.store.triggers
  {
    RenderConfigured(st.store);
    match Render(st.text, st.store.mentionKeys, st.store.mentions, st.store.triggers)
    case Failure(t) => Failure(NoTriggerConfig(t))
    case Success(rendered) => Success(st.(val := rendered.syntax, overlay := rendered.overlay))
  }

  lemma RenderConfigured(s: Store)
    ensures forall text: string :: Configured(s) ==> Render(text, s.mentionKeys, s.mentions, s.triggers).Success?
  {
    if Configured(s) {
      forall e | e in Entries(s.mentionKeys, s.mentions) ensures e.trigger in s.triggers {
        assert e.mention in s.mentions[e.trigger];
      }
    }
  }

  /** The `mentionremove` events of one `updateMentions` pass, in key order. */
  function RemovalEvents(keys: seq<string>, before: map<string, seq<Mention>>,
                         after: map<string, seq<Mention>>): seq<Event>
    decreases |keys|
  {
    if keys == [] then []
    else
      var k := keys[0];
      var here := if k in before && k in after && |after[k]| != |before[k]| then [MentionRemove(after[k], k)] else [];
      here + RemovalEvents(keys[1..], before, after)
  }

  /** The mention lists after pruning every list against the current text. */
  function PrunedMentions(mentions: map<string, seq<Mention>>, text: string): (r: map<string, seq<Mention>>)
    ensures r.Keys == mentions.Keys
    ensures forall k :: k in r ==> r[k] == PruneList(mentions[k], text)
  {
    map k | k in mentions :: PruneList(mentions[k], text)
  }

  /**
    `updateMentions`: drop mentions whose value is empty or gone from the
    text, firing `mentionremove(remaining, trigger)` for each list that shrank.
   */
  function UpdateMentions(st: State): (r: State)
    ensures r.store.mentions.Keys == st.store.mentions.Keys
    ensures forall k :: k in r.store.mentions ==>
      && IsSubsequence(r.store.mentions[k], st.store.mentions[k])
      && (forall m :: m in r.store.mentions[k] <==> m in st.store.mentions[k] && Keeps(st.text, m))
      && (forall m :: multiset(r.store.mentions[k])[m] == if Keeps(st.text, m) then multiset(st.store.mentions[k])[m] else 0)
    ensures |r.events| >= |st.events| && r.events[..|st.events|] == st.events
    ensures r == st.(store := r.store, events := r.events)
    ensures r.store == st.store.(mentions := r.store.mentions)
  {
    var pruned := PrunedMentions(st.store.mentions, st.text);
    var r := st.(store := st.store.(mentions := pruned),
                 events := st.events + RemovalEvents(st.store.mentionKeys, st.store.mentions, pruned));
    assert r.events[..|st.events|] == st.events;
    r
  }

  /** The events `updateMentions` adds. */
  function NewEvents(before: State, after: State): seq<Event>
    requires |before.events| <= |after.events|
  {
    after.events[|before.events|..]
  }

  /** Hides the list and forgets the active item; `this.suggestions` is kept. */
  function Hide(st: State): (r: State)
    ensures !r.list.visible && r.list.items == [] && r.list.active.None?
    ensures r.list.suggestions == st.list.suggestions
    ensures r == st.(list := r.list)
  {
    st.(list := st.list.(items := [], active := None, visible := false))
  }

  /**
    `_add`: record the mention unless its value is listed already, clear the
    query, hide the list, put `newText` into the field, re-render, place the
    caret and fire `mentionadd` with the trigger's whole list.
   */
  function Commit(st: State, trigger: string, m: Mention, newText: string, caret: nat): (r: State)
    ensures trigger !in st.store.mentions ==> r == Throw(st, NoMentionList(trigger))
    ensures trigger in st.store.mentions ==>
      && trigger in r.store.mentions
      && r.store.mentions[trigger] == AppendUnique(st.store.mentions[trigger], m)
      && (forall k :: k != trigger && k in st.store.mentions ==> k in r.store.mentions && r.store.mentions[k] == st.store.mentions[k])
      && r.store.mentions.Keys == st.store.mentions.Keys
      && r.query == [] && !r.list.visible && r.list.active.None? && r.text == newText
      && r.selStart == r.selEnd <= |newText|
      && |r.events| == |st.events| + 1
      && r.events[..|st.events|] == st.events
    ensures trigger in st.store.mentions && trigger in st.store.triggers && Configured(st.store) ==>
      && r.events[|st.events|] == MentionAdd(r.store.mentions[trigger], trigger)
      && r.selStart == Min(caret, |newText|)
      && InSync(r)
    ensures r.store.triggers == st.store.triggers && r.store.triggerKeys == st.store.triggerKeys
    ensures r.store.mentionKeys == st.store.mentionKeys
    ensures r.list.suggestions == st.list.suggestions
    ensures r.tasks == st.tasks && r.requests == st.requests && r.minChars == st.minChars
    ensures r.currentTrigger == st.currentTrigger
  {
    if trigger !in st.store.mentions then Throw(st, NoMentionList(trigger))
    else
      var list := AppendUnique(st.store.mentions[trigger], m);
      var st1 := Hide(st.(store := st.store.(mentions := st.store.mentions[trigger := list]), query := []))
        .(text := newText, selStart := |newText|, selEnd := |newText|);
      match UpdateValues(st1)
      case Failure(f) => Throw(st1, f)
      case Success(st2) =>
        var c := Min(caret, |newText|);
        var r := st2.(selStart := c, selEnd := c, events := st2.events + [MentionAdd(list, trigger)]);
        assert r.events[|st.events|] == MentionAdd(list, trigger);
        r
  }

  /** A new field value and the caret after it. */
  datatype Splice = Splice(text: string, caret: nat)

  /**
    The text and caret `addMention` computes: the occurrence of
    `trigger + query` found from `selectionEnd - |trigger + query|` is cut
    out through one character past the query and replaced by the value and a
    space. The span length assumes a one-character trigger.
   */
  function MentionSplice(text: string, selEnd: nat, trigger: string, query: string, value: string): (r: Splice)
    ensures var fq := trigger + query;
      var i := IndexOf(text, fq, selEnd - |fq|);
      && (i != -1 && |trigger| == 1 ==>
        && MatchAt(text, fq, i)
        && (forall j :: Clamp(selEnd - |fq|, 0, |text|) <= j < i ==> !MatchAt(text, fq, j))
        && r == SpliceParts(text[..i], value, text[i + |fq|..])
        && r.text == text[..i] + value + " " + text[i + |fq|..]
        && r.caret == i + |value| + 1)
      && r.caret >= |value| + 1 && r.caret <= |r.text| && MatchAt(r.text, value, r.caret - |value| - 1)
      && (i == -1 ==>
        && r.caret == |value| + 1
        && r.text == value + " " + text[Min(|query|, |text|)..])
  {
    var fullQuery := trigger + query;
    var firstIndex := IndexOf(text, fullQuery, selEnd - |fullQuery|);
    if firstIndex == -1 then SpliceUnmatched(text, |query|, value)
    else
      SpliceFound(text, selEnd, trigger, query, value);
      SpliceAt(text, firstIndex, |query|, value)
  }

  /** With a one-character trigger, the span `addMention` cuts is exactly the occurrence of `trigger + query`. */
  lemma SpliceFound(text: string, selEnd: nat, trigger: string, query: string, value: string)
    requires IndexOf(text, trigger + query, selEnd - |trigger + query|) != -1
    ensures var fq := trigger + query;
      var i := IndexOf(text, fq, selEnd - |fq|);
      var r := SpliceAt(text, i, |query|, value);
      && MatchAt(text, fq, i)
      && (|trigger| == 1 ==>
        && r == SpliceParts(text[..i], value, text[i + |fq|..])
        && r.text == text[..i] + value + " " + text[i + |fq|..]
        && r.caret == i + |value| + 1)
  {
    var fq := trigger + query;
    var i := IndexOf(text, fq, selEnd - |fq|);
    assert MatchAt(text, fq, i) && |fq| == |trigger| + |query|;
  }

  /** The two `substr` calls of `addMention` for a match at `i`: the span cut is `|query| + 1` long. */
  function SpliceAt(text: string, i: nat, queryLength: nat, value: string): (r: Splice)
    requires i <= |text|
    ensures i + queryLength + 1 <= |text| ==> r == SpliceParts(text[..i], value, text[i + queryLength + 1..])
    ensures r.caret == i + |value| + 1 && r.caret <= |r.text| && MatchAt(r.text, value, i)
  {
    SpliceParts(Substr(text, 0, i), value, Substr(text, i + queryLength + 1, |text|))
  }

  /** The same two `substr` calls when `indexOf` gave -1: nothing before, and the first `|query|` characters lost. */
  function SpliceUnmatched(text: string, queryLength: nat, value: string): (r: Splice)
    ensures r == SpliceParts([], value, text[Min(queryLength, |text|)..])
  {
    SpliceParts(Substr(text, 0, -1), value, Substr(text, queryLength, |text|))
  }

  /** `start + value + " " + end` with the caret after the space. */
  function SpliceParts(start: string, value: string, end: string): (r: Splice)
    ensures r.caret == |start| + |value| + 1
    ensures r.text == start + value + " " + end
    ensures |r.text| == |start| + |value| + 1 + |end|
    ensures r.text[..|start|] == start
    ensures r.text[|start|..r.caret] == value + " "
    ensures r.text[r.caret..] == end
    ensures MatchAt(r.text, value, |start|)
  {
    var r := Splice(start + value + " " + end, |start| + |value| + 1);
    assert r.text[..|start|] == start;
    assert r.text[|start|..r.caret] == value + " ";
    assert r.text[|start|..|start| + |value|] == value;
    assert r.text[r.caret..] == end;
    r
  }

  /** The text and caret `insert` computes: the value and a space go in at the caret. */
  function InsertSplice(text: string, selEnd: nat, value: string): (r: Splice)
    ensures var k := Min(selEnd, |text|);
      && r.caret == k + |value| + 1
      && r.text == text[..k] + value + " " + text[k..]
      && |r.text| == |text| + |value| + 1
      && r.text[..k] == text[..k]
      && r.text[k..r.caret] == value + " "
      && r.text[r.caret..] == text[k..]
  {
    SpliceParts(Substr(text, 0, selEnd), value, Substr(text, selEnd, |text|))
  }

  /**
    `addMention(trigger, mention)`: the typed `trigger + query` is replaced
    by the value and a space, and the mention is committed.
   */
  function AddMention(st: State, trigger: string, m: Mention): (r: State)
    ensures trigger !in st.store.mentions ==> r == Throw(st, NoMentionList(trigger))
    ensures trigger in st.store.mentions ==>
      && trigger in r.store.mentions && HasMention(r.store.mentions[trigger], m)
      && r.query == [] && !r.list.visible
      && r.text == MentionSplice(st.text, st.selEnd, trigger, st.query, m.value).text
    ensures trigger in st.store.mentions ==>
      && trigger in r.store.mentions
      && r.store.mentions[trigger] == AppendUnique(st.store.mentions[trigger], m)
      && (forall k :: k != trigger && k in st.store.mentions ==> k in r.store.mentions && r.store.mentions[k] == st.store.mentions[k])
      && r.store.mentions.Keys == st.store.mentions.Keys
    ensures r.store.triggers == st.store.triggers && r.store.triggerKeys == st.store.triggerKeys
    ensures r.store.mentionKeys == st.store.mentionKeys
    ensures r.list.suggestions == st.list.suggestions
    ensures r.tasks == st.tasks && r.requests == st.requests && r.currentTrigger == st.currentTrigger
    ensures trigger in st.store.mentions && trigger in st.store.triggers && Configured(st.store) ==>
      && trigger in r.store.mentions
      && r.events == st.events + [MentionAdd(r.store.mentions[trigger], trigger)]
      && r.selStart == r.selEnd == MentionSplice(st.text, st.selEnd, trigger, st.query, m.value).caret
      && InSync(r)
  {
    var s := MentionSplice(st.text, st.selEnd, trigger, st.query, m.value);
    Commit(st, trigger, m, s.text, s.caret)
  }

  /** `insert(trigger, mention)`: the value and a space go in at the caret, and the mention is committed. */
  function Insert(st: State, trigger: string, m: Mention): (r: State)
    ensures trigger !in st.store.mentions ==> r == Throw(st, NoMentionList(trigger))
    ensures trigger in st.store.mentions ==>
      var k := Min(st.selEnd, |st.text|);
      && trigger in r.store.mentions && HasMention(r.store.mentions[trigger], m)
      && r.query == [] && !r.list.visible
      && r.text == st.text[..k] + m.value + " " + st.text[k..]
    ensures trigger in st.store.mentions ==>
      && trigger in r.store.mentions
      && r.store.mentions[trigger] == AppendUnique(st.store.mentions[trigger], m)
      && (forall k :: k != trigger && k in st.store.mentions ==> k in r.store.mentions && r.store.mentions[k] == st.store.mentions[k])
      && r.store.mentions.Keys == st.store.mentions.Keys
    ensures r.store.triggers == st.store.triggers && r.store.triggerKeys == st.store.triggerKeys
    ensures r.store.mentionKeys == st.store.mentionKeys
    ensures r.list.suggestions == st.list.suggestions
    ensures r.tasks == st.tasks && r.requests == st.requests && r.currentTrigger == st.currentTrigger
    ensures trigger in st.store.mentions && trigger in st.store.triggers && Configured(st.store) ==>
      && trigger in r.store.mentions
      && r.events == st.events + [MentionAdd(r.store.mentions[trigger], trigger)]
      && r.selStart == r.selEnd == Min(st.selEnd, |st.text|) + |m.value| + 1
      && InSync(r)
  {
    var s := InsertSplice(st.text, st.selEnd, m.value);
    Commit(st, trigger, m, s.text, s.caret)
  }

  /** `_onSuggestionClick`: commit the clicked suggestion for the current trigger. */
  function OnSuggestionClick(st: State, uid: string): (r: State)
    ensures uid !in st.list.suggestions ==> r == Throw(st, NoSuggestion(uid))
    ensures uid in st.list.suggestions ==> r == AddMention(st, CurrentTriggerText(st), st.list.suggestions[uid])
    ensures uid in st.list.suggestions && CurrentTriggerText(st) in st.store.mentions ==>
      var t, m := CurrentTriggerText(st), st.list.suggestions[uid];
      && t in r.store.mentions && HasMention(r.store.mentions[t], m)
      && r.query == [] && !r.list.visible
      && r.text == MentionSplice(st.text, st.selEnd, t, st.query, m.value).text
    ensures uid in st.list.suggestions && CurrentTriggerText(st) in st.store.mentions
            && CurrentTriggerText(st) in st.store.triggers && Configured(st.store) ==>
      var t := CurrentTriggerText(st);
      && t in r.store.mentions
      && r.events == st.events + [MentionAdd(r.store.mentions[t], t)]
      && InSync(r)
  {
    if uid in st.list.suggestions then AddMention(st, CurrentTriggerText(st), st.list.suggestions[uid])
    else Throw(st, NoSuggestion(uid))
  }

  /** The text before the caret, as `_onInput` reads it. */
  function Buffer(st: State): string {
    Substr(st.text, 0, st.selStart)
  }

  /**
    `_onInput`: re-render, prune, then look for a trigger before the caret;
    when one is found, the text after it becomes the query and a search for
    it is deferred.
   */
  function OnInput(st: State): (r: State)
    ensures UpdateValues(st).Failure? ==> r == Throw(st, UpdateValues(st).error)
    ensures UpdateValues(st).Success? ==>
      var pruned := UpdateMentions(UpdateValues(st).value);
      var buffer := Buffer(st);
      var d := DetectTrigger(buffer, st.store.triggerKeys, CurrentTriggerText(st));
      && r.store == pruned.store
      && r.events == pruned.events
      && (d.index > -1 ==> r.query == QueryAfter(buffer, d.index) && r.tasks == st.tasks + [DeferredSearch(r.query, d.triggerChar)])
      && (d.index <= -1 ==> r.query == st.query && r.tasks == st.tasks)
      && r.text == st.text && r.selStart == st.selStart && r.selEnd == st.selEnd
      && r.list == st.list && r.requests == st.requests
    ensures UpdateValues(st).Success? ==>
      Render(st.text, st.store.mentionKeys, st.store.mentions, st.store.triggers) == Success(Rendered(r.val, r.overlay))
    ensures r == st.(store := r.store, events := r.events, val := r.val, overlay := r.overlay, query := r.query, tasks := r.tasks)
  {
    match UpdateValues(st)
    case Failure(f) => Throw(st, f)
    case Success(st1) =>
      var st2 := UpdateMentions(st1);
      var buffer := Substr(st2.text, 0, st2.selStart);
      var d := DetectTrigger(buffer, st2.store.triggerKeys, CurrentTriggerText(st2));
      if d.index > -1 then
        var q := QueryAfter(buffer, d.index);
        st2.(query := q, tasks := st2.tasks + [DeferredSearch(q, d.triggerChar)])
      else st2
  }

  /** `search(query, trigger)`: call the trigger's `fetch` once the query is long enough. */
  function Search(st: State, query: string, trigger: string): (r: State)
    ensures |query| < st.minChars ==> r == Hide(st)
    ensures |query| >= st.minChars && trigger in st.store.triggers ==>
      r == st.(requests := st.requests + [Request(query, trigger, st.store.triggers[trigger].fetches)])
    ensures |query| >= st.minChars && trigger !in st.store.triggers ==> r == Throw(st, NoTriggerConfig(trigger))
    ensures |r.requests| > |st.requests| <==> |query| >= st.minChars && trigger in st.store.triggers
  {
    if |query| >= st.minChars then
      if trigger in st.store.triggers then st.(requests := st.requests + [Request(query, trigger, st.store.triggers[trigger].fetches)])
      else Throw(st, NoTriggerConfig(trigger))
    else Hide(st)
  }

  /** The uid a result is listed under: `trigger + ":" + (item.id || item.name)`. */
  function Uid(trigger: string, item: Mention): string {
    trigger + ":" + (if IdTruthy(item.id) then IdText(item.id) else item.name)
  }

  /** `_.extend({}, item, { value: item.name })`. */
  function AsSuggestion(item: Mention): (m: Mention)
    ensures m.value == item.name && m.name == item.name && m.id == item.id
  {
    item.(value := item.name)
  }

  function Uids(trigger: string, results: seq<Mention>): (r: seq<string>)
    ensures |r| == |results|
    ensures forall i :: 0 <= i < |results| ==> r[i] == Uid(trigger, results[i])
  {
    seq(|results|, i requires 0 <= i < |results| => Uid(trigger, results[i]))
  }

  /** `this.suggestions[uid] = …` for each result in turn. */
  function StoreSuggestions(suggestions: map<string, Mention>, trigger: string, results: seq<Mention>): (r: map<string, Mention>)
    decreases |results|
    ensures forall u :: u in r <==> u in suggestions || u in Uids(trigger, results)
    ensures forall i :: 0 <= i < |results| ==> Uid(trigger, results[i]) in r
  {
    if results == [] then suggestions
    else
      var rest := results[1..];
      var r := StoreSuggestions(suggestions[Uid(trigger, results[0]) := AsSuggestion(results[0])], trigger, rest);
      UidsCons(trigger, results);
      r
  }

  lemma UidsCons(trigger: string, results: seq<Mention>)
    requires results != []
    ensures Uids(trigger, results) == [Uid(trigger, results[0])] + Uids(trigger, results[1..])
    ensures forall i :: 1 <= i < |results| ==> results[i] == results[1..][i - 1]
  {
  }

  lemma StoreSuggestionsStep(suggestions: map<string, Mention>, trigger: string, results: seq<Mention>)
    requires results != []
    ensures StoreSuggestions(suggestions, trigger, results)
         == StoreSuggestions(suggestions[Uid(trigger, results[0]) := AsSuggestion(results[0])], trigger, results[1..])
  {
  }

  /** Entries under uids no result produces are left as they were. */
  lemma {:induction false} StoreSuggestionsKeeps(suggestions: map<string, Mention>, trigger: string, results: seq<Mention>)
    decreases |results|
    ensures var r := StoreSuggestions(suggestions, trigger, results);
      forall u :: u in suggestions && u !in Uids(trigger, results) ==> r[u] == suggestions[u]
  {
    if results != [] {
      UidsCons(trigger, results);
      StoreSuggestionsStep(suggestions, trigger, results);
      var u0 := Uid(trigger, results[0]);
      StoreSuggestionsKeeps(suggestions[u0 := AsSuggestion(results[0])], trigger, results[1..]);
    }
  }

  /** A uid no later result shares holds the suggestion of its own result: the last writer wins. */
  lemma {:induction false} StoreSuggestionsLastWins(suggestions: map<string, Mention>, trigger: string, results: seq<Mention>, i: nat)
    decreases |results|
    requires i < |results|
    requires forall j :: i < j < |results| ==> Uid(trigger, results[j]) != Uid(trigger, results[i])
    ensures StoreSuggestions(suggestions, trigger, results)[Uid(trigger, results[i])] == AsSuggestion(results[i])
  {
    UidsCons(trigger, results);
    StoreSuggestionsStep(suggestions, trigger, results);
    var u0 := Uid(trigger, results[0]);
    var s1 := suggestions[u0 := AsSuggestion(results[0])];
    var rest := results[1..];
    if i == 0 {
      var us := Uids(trigger, rest);
      forall k | 0 <= k < |us| ensures us[k] != u0 {
        assert rest[k] == results[k + 1];
      }
      assert u0 !in us;
      assert u0 in s1 && s1[u0] == AsSuggestion(results[0]);
      StoreSuggestionsKeeps(s1, trigger, rest);
    } else {
      forall j | i - 1 < j < |rest| ensures Uid(trigger, rest[j]) != Uid(trigger, rest[i - 1]) {
        assert rest[j] == results[j + 1];
      }
      StoreSuggestionsLastWins(s1, trigger, rest, i - 1);
      assert rest[i - 1] == results[i];
    }
  }

  /** `populateDropdown`: show one item per result, the first one active; nothing to show hides the list. */
  function PopulateDropdown(st: State, trigger: string, results: seq<Mention>): (r: State)
    ensures results == [] ==> r == Hide(st)
    ensures results != [] ==>
      && r.list.visible && r.list.active == Some(0)
      && r.list.items == Uids(trigger, results)
      && r.list.suggestions == StoreSuggestions(st.list.suggestions, trigger, results)
    ensures r == st.(list := r.list)
  {
    if results == [] then Hide(st)
    else SelectItem(st.(list := Dropdown(StoreSuggestions(st.list.suggestions, trigger, results), Uids(trigger, results), None, true)), 0)
  }

  /**
    The callback of request `i`, which only a host `fetch` invokes:
    remember its trigger, then populate the list.
   */
  function FetchCallback(st: State, i: nat, results: seq<Mention>): (r: State)
    requires i < |st.requests| && st.requests[i].answered
    ensures r.currentTrigger == Some(st.requests[i].trigger)
    ensures results == [] ==> !r.list.visible
    ensures results == [] ==> r.list == Hide(st).list
    ensures results != [] ==>
      && r.list.visible && r.list.active == Some(0)
      && r.list.items == Uids(st.requests[i].trigger, results)
      && r.list.suggestions == StoreSuggestions(st.list.suggestions, st.requests[i].trigger, results)
    ensures r == st.(currentTrigger := r.currentTrigger, list := r.list)
    ensures r.store == st.store && r.text == st.text && r.events == st.events
  {
    var req := st.requests[i];
    PopulateDropdown(st.(currentTrigger := Some(req.trigger)), req.trigger, results)
  }

  /** A keydown handler's new state and its return value (`None` for `undefined`). */
  datatype KeyOutcome = KeyOutcome(st: State, ret: Option<bool>)

  /** The item `Down` moves to: the next one, or the first when none is active. */
  function NextItem(d: Dropdown): Option<nat> {
    match d.active
    case Some(i) => if i + 1 < |d.items| then Some(i + 1) else None
    case None => if d.items != [] then Some(0) else None
  }

  /** `_onKeyDown`. */
  function OnKeyDown(st: State, key: Key): (o: KeyOutcome)
    ensures key.code == KeyBackspace ==> o == KeyOutcome(st.(tasks := st.tasks + [DeferredHide]), None)
    ensures key.code != KeyBackspace && !st.list.visible ==> o == KeyOutcome(st, Some(true))
    ensures st.list.visible && key.code == KeyEsc ==> o == KeyOutcome(Hide(st), Some(false))
    ensures st.list.visible && key.code == KeyDown ==>
      o == KeyOutcome(st.(list := st.list.(active := if NextItem(st.list).Some? then NextItem(st.list) else st.list.active)), Some(false))
    ensures st.list.visible && key.code == KeyUp && st.list.active.None? ==> o == KeyOutcome(Throw(st, NoActiveItem), None)
    ensures st.list.visible && key.code == KeyUp && st.list.active.Some? ==>
      var i := st.list.active.value;
      o == KeyOutcome(st.(list := st.list.(active := Some(if i > 0 then i - 1 else i))), Some(false))
    ensures st.list.visible && (key.code == KeyReturn || key.code == KeyTab) ==>
      if st.list.active.Some? && !key.shift && !key.alt then
        o == KeyOutcome(PressActive(st), if Threw(st, PressActive(st)) then None else Some(false))
      else o == KeyOutcome(st, Some(true))
    ensures st.list.visible && key.code == KeySpace && (st.list.active.None? || st.list.active.value >= |st.list.items|) ==>
      o == KeyOutcome(Throw(st, NoActiveItem), None)
    ensures (&& st.list.visible && key.code == KeySpace && st.list.active.Some? && st.list.active.value < |st.list.items|
             && st.list.items[st.list.active.value] !in st.list.suggestions) ==>
      o == KeyOutcome(Throw(st, NoSuggestion(st.list.items[st.list.active.value])), None)
    ensures (&& st.list.visible && key.code == KeySpace && st.list.active.Some? && st.list.active.value < |st.list.items|
             && st.list.items[st.list.active.value] in st.list.suggestions) ==>
      var m := st.list.suggestions[st.list.items[st.list.active.value]];
      && (o.ret == Some(false) <==> ToLower(m.value) == ToLower(CurrentTriggerText(st) + st.query) && !Threw(st, PressActive(st)))
      && (ToLower(m.value) == ToLower(CurrentTriggerText(st) + st.query) ==>
            o == KeyOutcome(PressActive(st), if Threw(st, PressActive(st)) then None else Some(false)))
      && (ToLower(m.value) != ToLower(CurrentTriggerText(st) + st.query) ==> o == KeyOutcome(st, Some(true)))
    ensures st.list.visible && key.code !in {KeyBackspace, KeyUp, KeyDown, KeyReturn, KeyTab, KeyEsc, KeySpace} ==>
      o == KeyOutcome(st, Some(true))
  {
    if key.code == KeyBackspace then KeyOutcome(st.(tasks := st.tasks + [DeferredHide]), None)
    else if !st.list.visible then KeyOutcome(st, Some(true))
    else if key.code == KeyDown then
      var next := NextItem(st.list);
      KeyOutcome(if next.Some? then SelectItem(st, next.value) else st, Some(false))
    else if key.code == KeyUp then
      match st.list.active
      case None => KeyOutcome(Throw(st, NoActiveItem), None)
      case Some(i) => KeyOutcome(if i > 0 then SelectItem(st, i - 1) else st, Some(false))
    else if key.code == KeyReturn || key.code == KeyTab then
      if st.list.active.Some? && !key.shift && !key.alt then Pressed(st)
      else KeyOutcome(st, Some(true))
    else if key.code == KeyEsc then KeyOutcome(Hide(st), Some(false))
    else if key.code == KeySpace then
      match st.list.active
      case None => KeyOutcome(Throw(st, NoActiveItem), None)
      case Some(i) =>
        if i >= |st.list.items| then KeyOutcome(Throw(st, NoActiveItem), None)
        else
          var uid := st.list.items[i];
          if uid !in st.list.suggestions then KeyOutcome(Throw(st, NoSuggestion(uid)), None)
          else if ToLower(st.list.suggestions[uid].value) == ToLower(CurrentTriggerText(st) + st.query) then
            Pressed(st)
          else KeyOutcome(st, Some(true))
    else KeyOutcome(st, Some(true))
  }

  /**
    Pressing the active item, then `return false`: an error thrown by the
    click handler leaves `_onKeyDown` before it returns.
   */
  function Pressed(st: State): (o: KeyOutcome)
    ensures o.st == PressActive(st)
    ensures o.ret == (if Threw(st, o.st) then None else Some(false))
  {
    var p := PressActive(st);
    KeyOutcome(p, if Threw(st, p) then None else Some(false))
  }

  /**
    `$activeItem.trigger("mousedown")`: the click handler runs for the active
    item, which commits its suggestion; with no active item nothing happens.
   */
  function PressActive(st: State): (r: State)
    ensures st.list.active.Some? && st.list.active.value < |st.list.items| ==>
      r == OnSuggestionClick(st, st.list.items[st.list.active.value])
    ensures (&& st.list.active.Some? && st.list.active.value < |st.list.items|
             && st.list.items[st.list.active.value] in st.list.suggestions
             && CurrentTriggerText(st) in st.store.mentions) ==>
      var t := CurrentTriggerText(st);
      && t in r.store.mentions
      && HasMention(r.store.mentions[t], st.list.suggestions[st.list.items[st.list.active.value]])
      && !r.list.visible && r.query == []
    ensures (st.list.active.None? || st.list.active.value >= |st.list.items|) ==> r == st
    ensures (&& st.list.active.Some? && st.list.active.value < |st.list.items|
             && (st.list.items[st.list.active.value] !in st.list.suggestions
                 || CurrentTriggerText(st) !in st.store.mentions)) ==>
      Threw(st, r)
    ensures (&& st.list.active.Some? && st.list.active.value < |st.list.items|
             && st.list.items[st.list.active.value] in st.list.suggestions
             && CurrentTriggerText(st) in st.store.mentions && CurrentTriggerText(st) in st.store.triggers
             && Configured(st.store)) ==>
      var t := CurrentTriggerText(st);
      && t in r.store.mentions
      && r.events == st.events + [MentionAdd(r.store.mentions[t], t)]
      && !Threw(st, r)
  {
    match st.list.active
    case Some(i) => if i < |st.list.items| then OnSuggestionClick(st, st.list.items[i]) else st
    case None => st
  }

  /** `selectItem`: make item `i` the active one. */
  function SelectItem(st: State, i: nat): (r: State)
    ensures r.list.active == Some(i) && r.list.items == st.list.items && r.list.visible == st.list.visible
    ensures r.list.suggestions == st.list.suggestions
    ensures r == st.(list := r.list)
  {
    st.(list := st.list.(active := Some(i)))
  }

  /** The `mentionreset` events, one per registered trigger. */
  function ResetEvents(keys: seq<string>): (r: seq<Event>)
    ensures |r| == |keys|
    ensures forall i :: 0 <= i < |keys| ==> r[i] == MentionReset(keys[i])
  {
    seq(|keys|, i requires 0 <= i < |keys| => MentionReset(keys[i]))
  }

  /** `reset`: empty the field and every list, re-render, fire `mentionreset` per trigger. */
  function Reset(st: State): (r: State)
    ensures r.text == [] && r.selStart == 0 && r.selEnd == 0
    ensures r.store.mentions.Keys == st.store.mentions.Keys
    ensures forall k :: k in r.store.mentions ==> r.store.mentions[k] == []
    ensures r.store.triggers == st.store.triggers
    ensures r.val == [] && r.overlay == "\n" && InSync(r)
    ensures r.events == st.events + ResetEvents(st.store.triggerKeys)
    ensures r.store == st.store.(mentions := r.store.mentions)
    ensures r == st.(text := [], selStart := 0, selEnd := 0, store := r.store, val := r.val, overlay := r.overlay, events := r.events)
  {
    var cleared := map k | k in st.store.mentions :: [];
    var st1 := st.(text := [], selStart := 0, selEnd := 0, store := st.store.(mentions := cleared));
    EmptyRender(st1);
    var st2 := UpdateValues(st1).value;
    assert st2 == st1.(val := [], overlay := "\n") && InSync(st2);
    st2.(events := st2.events + ResetEvents(st.store.triggerKeys))
  }

  /** With every list empty and the field empty, `updateValues` cannot throw and renders `""` and a newline. */
  lemma EmptyRender(st: State)
    requires st.text == [] && forall k :: k in st.store.mentions ==> st.store.mentions[k] == []
    ensures UpdateValues(st) == Success(st.(val := [], overlay := "\n"))
  {
    RenderWithoutMentions([], st.store.mentionKeys, st.store.mentions, st.store.triggers);
  }

  /** `val()`: the syntax text, or the raw text while that is empty. */
  function Val(st: State): (r: string)
    ensures st.val != [] ==> r == st.val
    ensures st.val == [] ==> r == st.text
  {
    if st.val != [] then st.val else st.text
  }

  /** What `getMentions` returns: one trigger's list (possibly undefined) or the whole map. */
  datatype MentionsView = Listed(list: Option<seq<Mention>>) | Everything(all: map<string, seq<Mention>>)

  /** `getMentions(trigger)`: a missing or empty trigger argument returns the whole map. */
  function GetMentions(st: State, trigger: Option<string>): (r: MentionsView)
    ensures trigger.Some? && trigger.value != [] && trigger.value in st.store.mentions
      ==> r == Listed(Some(st.store.mentions[trigger.value]))
    ensures trigger.Some? && trigger.value != [] && trigger.value !in st.store.mentions ==> r == Listed(None)
    ensures (trigger.None? || trigger.value == []) ==> r == Everything(st.store.mentions)
  {
    match trigger
    case Some(t) =>
      if t == [] then Everything(st.store.mentions)
      else if t in st.store.mentions then Listed(Some(st.store.mentions[t]))
      else Listed(None)
    case None => Everything(st.store.mentions)
  }

  /** `setMentions(trigger, mentions)`: replace the list, re-render, fire `mentionadd` if non-empty. */
  function SetMentions(st: State, trigger: string, list: seq<Mention>): (r: State)
    ensures trigger in r.store.mentions && r.store.mentions[trigger] == list
    ensures forall k :: k != trigger && k in st.store.mentions ==> k in r.store.mentions && r.store.mentions[k] == st.store.mentions[k]
    ensures r.store.triggers == st.store.triggers
    ensures r.text == st.text && r.list == st.list
    ensures r.store.mentions.Keys == st.store.mentions.Keys + {trigger}
    ensures r.store.mentionKeys == AppendKey(st.store.mentionKeys, trigger)
    ensures r.store.triggerKeys == st.store.triggerKeys
    ensures r == st.(store := r.store, val := r.val, overlay := r.overlay, events := r.events)
    ensures Configured(st.store) && (list != [] ==> trigger in st.store.triggers) ==>
      && r.events == st.events + (if list != [] then [MentionAdd(list, trigger)] else [])
      && InSync(r)
  {
    var st1 := st.(store := st.store.(mentionKeys := AppendKey(st.store.mentionKeys, trigger),
                                      mentions := st.store.mentions[trigger := list]));
    assert Configured(st.store) && (list != [] ==> trigger in st.store.triggers) ==> Configured(st1.store);
    match UpdateValues(st1)
    case Failure(f) => Throw(st1, f)
    case Success(st2) => if list != [] then st2.(events := st2.events + [MentionAdd(list, trigger)]) else st2
  }

  /** Run the oldest deferred call, if any. */
  function RunDeferred(st: State): (r: State)
    ensures st.tasks == [] ==> r == st
    ensures st.tasks != [] && st.tasks[0] == DeferredHide ==> r == Hide(st.(tasks := st.tasks[1..]))
    ensures st.tasks != [] && st.tasks[0].DeferredSearch? ==>
      r == Search(st.(tasks := st.tasks[1..]), st.tasks[0].query, st.tasks[0].trigger)
  {
    if st.tasks == [] then st
    else
      var rest := st.(tasks := st.tasks[1..]);
      match st.tasks[0]
      case DeferredHide => Hide(rest)
      case DeferredSearch(q, t) => Search(rest, q, t)
  }
}

=== FILE: detect.dfy ===
/**
  Query detection of `_onInput`: over the text before the caret, find the
  registered trigger closest to the caret; when the character before it is
  not whitespace, `(` or `[`, fall back to the previous occurrence of the
  trigger of the last search.
 */
module Detect {
  import opened JsString

  /** The characters `/\s|\(|\[/` accepts in front of a trigger. */
  predicate IsQueryBoundary(c: char) {
    IsJsWhitespace(c) || c == '(' || c == '['
  }

  /**
    `Math.max.apply(Math, indexes)` over `buffer.lastIndexOf(trigger)` for
    every registered trigger. With no trigger JavaScript yields -Infinity;
    -1 stands for it, and behaves the same in everything that follows.
   */
  function ClosestTrigger(buffer: string, keys: seq<string>): (r: int)
    decreases |keys|
    ensures -1 <= r <= |buffer|
    ensures forall k :: k in keys ==> LastIndexOf(buffer, k, |buffer|) <= r
    ensures r != -1 ==> exists k :: k in keys && LastIndexOf(buffer, k, |buffer|) == r
  {
    if keys == [] then -1
    else Max(LastIndexOf(buffer, keys[0], |buffer|), ClosestTrigger(buffer, keys[1..]))
  }

  /** The character in front of position `top` is absent or is whitespace, `(` or `[`. */
  predicate StartsQuery(buffer: string, top: int) {
    var prev := CharAt(buffer, top - 1);
    prev == [] || IsQueryBoundary(prev[0])
  }

  /** Where the query's trigger was found, and the trigger character handed to `search`. */
  datatype Detection = Detection(index: int, triggerChar: string)

  /**
    The trigger search of `_onInput` over `buffer`, the text before the
    caret, with `current` the trigger of the last search.
   */
  function DetectTrigger(buffer: string, keys: seq<string>, current: string): (d: Detection)
    ensures var top := ClosestTrigger(buffer, keys);
      && d.triggerChar == CharAt(buffer, top)
      && d.index <= top
      && (d.index == -1 || (0 <= d.index && (MatchAt(buffer, current, d.index)
                                             || exists k :: k in keys && MatchAt(buffer, k, d.index))))
      && (StartsQuery(buffer, top) ==> d.index == top && forall k :: k in keys ==> LastIndexOf(buffer, k, |buffer|) <= d.index)
      && (!StartsQuery(buffer, top) ==> d.index < top && (d.index == -1 || MatchAt(buffer, current, d.index)))
      && (!StartsQuery(buffer, top) ==> forall j :: d.index < j < top ==> !MatchAt(buffer, current, j))
  {
    var top := ClosestTrigger(buffer, keys);
    var index := if StartsQuery(buffer, top) then top else LastIndexOf(buffer, current, top - 1);
    Detection(index, CharAt(buffer, top))
  }

  /** The query handed to `search`: the text after the trigger position, untrimmed. */
  function QueryAfter(buffer: string, index: int): (q: string)
    requires 0 <= index
    ensures index < |buffer| ==> q == buffer[index + 1..]
    ensures index < |buffer| ==> buffer == buffer[..index + 1] + q
  {
    Slice(buffer, index + 1)
  }
}

=== FILE: escape.dfy ===
/**
  HTML escaping as underscore's `_.escape` performs it (the six-character
  table of underscore 1.7 and later), together with the matching decoder,
  so that the overlay markup can be related back to the text it renders.
 */
module Escape {

  /** The replacement `_.escape` uses for one character. */
  function EscapeChar(c: char): string {
    match c
    case '&' => "&amp;"
    case '<' => "&lt;"
    case '>' => "&gt;"
    case '"' => "&quot;"
    case '\'' => "&#x27;"
    case '`' => "&#x60;"
    case _ => [c]
  }

  /** Characters that never appear unescaped in encoded text. */
  predicate Special(c: char) {
    c == '<' || c == '>' || c == '"' || c == '\'' || c == '`'
  }

  /** `utils.htmlEncode`, i.e. `_.escape`. */
  function HtmlEncode(s: string): (r: string)
    decreases |s|
    ensures forall i :: 0 <= i < |r| ==> !Special(r[i])
    ensures |r| >= |s|
  {
    if s == [] then [] else EscapeChar(s[0]) + HtmlEncode(s[1..])
  }

  /** Reads back one entity of the escape table, or a single plain character. */
  function HtmlDecode(s: string): string
    decreases |s|
  {
    if s == [] then []
    else if |s| >= 5 && s[..5] == "&amp;" then "&" + HtmlDecode(s[5..])
    else if |s| >= 4 && s[..4] == "&lt;" then "<" + HtmlDecode(s[4..])
    else if |s| >= 4 && s[..4] == "&gt;" then ">" + HtmlDecode(s[4..])
    else if |s| >= 6 && s[..6] == "&quot;" then "\"" + HtmlDecode(s[6..])
    else if |s| >= 6 && s[..6] == "&#x27;" then "'" + HtmlDecode(s[6..])
    else if |s| >= 6 && s[..6] == "&#x60;" then "`" + HtmlDecode(s[6..])
    else [s[0]] + HtmlDecode(s[1..])
  }

  lemma DecodeAmp(rest: string)
    ensures HtmlDecode("&amp;" + rest) == "&" + HtmlDecode(rest)
  {
    var s := "&amp;" + rest;
    assert s[..5] == "&amp;" && s[5..] == rest;
  }

  lemma DecodeLt(rest: string)
    ensures HtmlDecode("&lt;" + rest) == "<" + HtmlDecode(rest)
  {
    var s := "&lt;" + rest;
    assert s[1] == 'l';
    assert s[..4] == "&lt;" && s[4..] == rest;
  }

  lemma DecodeGt(rest: string)
    ensures HtmlDecode("&gt;" + rest) == ">" + HtmlDecode(rest)
  {
    var s := "&gt;" + rest;
    assert s[1] == 'g';
    assert s[..4] == "&gt;" && s[4..] == rest;
  }

  lemma DecodeQuot(rest: string)
    ensures HtmlDecode("&quot;" + rest) == "\"" + HtmlDecode(rest)
  {
    var s := "&quot;" + rest;
    assert s[1] == 'q';
    assert s[..6] == "&quot;" && s[6..] == rest;
  }

  lemma DecodeApos(rest: string)
    ensures HtmlDecode("&#x27;" + rest) == "'" + HtmlDecode(rest)
  {
    var s := "&#x27;" + rest;
    assert s[1] == '#' && s[3] == '2';
    assert s[..6] == "&#x27;" && s[6..] == rest;
  }

  lemma DecodeBacktick(rest: string)
    ensures HtmlDecode("&#x60;" + rest) == "`" + HtmlDecode(rest)
  {
    var s := "&#x60;" + rest;
    assert s[1] == '#' && s[3] == '6';
    assert s[..6] == "&#x60;" && s[6..] == rest;
  }

  lemma DecodePlain(c: char, rest: string)
    requires c != '&'
    ensures HtmlDecode([c] + rest) == [c] + HtmlDecode(rest)
  {
    var s := [c] + rest;
    assert s[0] == c && s[1..] == rest;
    assert forall n :: 1 <= n <= |s| ==> s[..n][0] != '&';
  }

  /** Decoding one escaped character followed by anything reads that character back. */
  lemma DecodeEscapeChar(c: char, rest: string)
    ensures HtmlDecode(EscapeChar(c) + rest) == [c] + HtmlDecode(rest)
  {
    match c
    case '&' => DecodeAmp(rest);
    case '<' => DecodeLt(rest);
    case '>' => DecodeGt(rest);
    case '"' => DecodeQuot(rest);
    case '\'' => DecodeApos(rest);
    case '`' => DecodeBacktick(rest);
    case _ => DecodePlain(c, rest);
  }

  /** Escaping loses nothing: decoding the encoded text gives the text back. */
  lemma {:induction false} DecodeEncode(s: string)
    decreases |s|
    ensures HtmlDecode(HtmlEncode(s)) == s
  {
    if s != [] {
      DecodeEncode(s[1..]);
      DecodeEscapeChar(s[0], HtmlEncode(s[1..]));
      assert s == [s[0]] + s[1..];
    }
  }
}

=== FILE: js_string.dfy ===
/**
  The JavaScript string primitives the component is built from, with their
  ECMAScript semantics over `seq<char>`: `indexOf`, `lastIndexOf`, `substr`,
  `slice`, `charAt`, `split`/`join` (and replace-all as their composition),
  ASCII `toLowerCase`, the `\s` character class, and number-to-string for
  integer ids.
 */
module JsString {

  function Min(a: int, b: int): int { if a <= b then a else b }

  function Max(a: int, b: int): int { if a <= b then b else a }

  /** ECMAScript's clamping of a position argument into `[lo, hi]`. */
  function Clamp(x: int, lo: int, hi: int): (r: int)
    requires lo <= hi
    ensures lo <= r <= hi
    ensures lo <= x <= hi ==> r == x
  {
    if x < lo then lo else if x > hi then hi else x
  }

  /** `t` occurs in `s` starting at position `i`. */
  predicate MatchAt(s: string, t: string, i: int) {
    0 <= i && i + |t| <= |s| && s[i..i + |t|] == t
  }

  /** Forward search from `i`: the least match position at or after `i`, or -1. */
  function FindFrom(s: string, t: string, i: nat): (r: int)
    decreases |s| - i
    ensures r == -1 || (i <= r && MatchAt(s, t, r))
    ensures forall j :: i <= j && (r == -1 || j < r) ==> !MatchAt(s, t, j)
  {
    if i + |t| > |s| then -1
    else if s[i..i + |t|] == t then i
    else FindFrom(s, t, i + 1)
  }

  /** `s.indexOf(t, from)`: the start position is clamped into `[0, |s|]`. */
  function IndexOf(s: string, t: string, from: int): (r: int)
    ensures r == -1 || (Clamp(from, 0, |s|) <= r && MatchAt(s, t, r))
    ensures forall j :: Clamp(from, 0, |s|) <= j && (r == -1 || j < r) ==> !MatchAt(s, t, j)
  {
    FindFrom(s, t, Clamp(from, 0, |s|))
  }

  /** `s.indexOf(t) != -1`, the containment test the component uses. */
  function Contains(s: string, t: string): (b: bool)
    ensures b <==> exists i :: MatchAt(s, t, i)
  {
    IndexOf(s, t, 0) != -1
  }

  /** Backward search from `i`: the greatest match position at or before `i`, or -1. */
  function FindBack(s: string, t: string, i: int): (r: int)
    decreases i
    ensures r == -1 || (0 <= r <= i && MatchAt(s, t, r))
    ensures forall j :: j <= i && r < j ==> !MatchAt(s, t, j)
  {
    if i < 0 then -1
    else if MatchAt(s, t, i) then i
    else FindBack(s, t, i - 1)
  }

  /**
    `s.lastIndexOf(t, from)`: the greatest match position not after the
    clamped `from`; an omitted `from` is `|s|`.
   */
  function LastIndexOf(s: string, t: string, from: int): (r: int)
    ensures r == -1 || (0 <= r <= Clamp(from, 0, |s|) && MatchAt(s, t, r))
    ensures forall j :: j <= Clamp(from, 0, |s|) && r < j ==> !MatchAt(s, t, j)
  {
    var start := Min(Clamp(from, 0, |s|), |s| - |t|);
    var r := FindBack(s, t, start);
    assert forall j :: start < j <= Clamp(from, 0, |s|) ==> !MatchAt(s, t, j);
    r
  }

  /**
    `s.substr(start, length)` (ECMAScript Annex B): a negative start counts
    from the end, the length is clamped to `[0, |s|]`, the end to `|s|`.
   */
  function Substr(s: string, start: int, length: int): (r: string)
    ensures 0 <= start <= |s| ==> r == s[start..Min(start + Clamp(length, 0, |s|), |s|)]
    ensures length <= 0 ==> r == []
  {
    var from := if start < 0 then Max(|s| + start, 0) else Min(start, |s|);
    var to := Min(from + Clamp(length, 0, |s|), |s|);
    s[from..to]
  }

  /** `s.slice(start)` with the end omitted. */
  function Slice(s: string, start: int): (r: string)
    ensures 0 <= start <= |s| ==> r == s[start..]
    ensures start >= |s| ==> r == []
  {
    var from := if start < 0 then Max(|s| + start, 0) else Min(start, |s|);
    s[from..]
  }

  /** `s.charAt(i)`: the one-character string at `i`, or "" out of range. */
  function CharAt(s: string, i: int): (r: string)
    ensures |r| <= 1
    ensures r != [] <==> 0 <= i < |s|
    ensures r != [] ==> r[0] == s[i]
  {
    if 0 <= i < |s| then [s[i]] else []
  }

  /** The characters of `s`, each as a one-character string. */
  function Chars(s: string): (parts: seq<string>)
    ensures |parts| == |s|
    ensures forall i :: 0 <= i < |s| ==> parts[i] == [s[i]]
  {
    seq(|s|, i requires 0 <= i < |s| => [s[i]])
  }

  /**
    `s.split(sep)` for a string separator: an empty separator splits into
    characters (and "" into no parts at all); otherwise the parts between
    the leftmost non-overlapping occurrences of `sep`.
   */
  function Split(s: string, sep: string): (parts: seq<string>) {
    if sep == [] then Chars(s) else SplitFrom(s, sep, 0)
  }

  /** The parts of `s[p..]` for a non-empty separator, scanning from position `p`. */
  function SplitFrom(s: string, sep: string, p: nat): (parts: seq<string>)
    requires sep != [] && p <= |s|
    decreases |s| - p
  {
    var i := IndexOf(s, sep, p);
    if i == -1 then [s[p..]] else [s[p..i]] + SplitFrom(s, sep, i + |sep|)
  }

  /** `parts.join(sep)`. */
  function Join(parts: seq<string>, sep: string): string
    decreases |parts|
  {
    if parts == [] then []
    else if |parts| == 1 then parts[0]
    else parts[0] + sep + Join(parts[1..], sep)
  }

  /** `s.split(t).join(r)`: every leftmost non-overlapping occurrence of `t` replaced by `r`. */
  function ReplaceAll(s: string, t: string, r: string): string {
    Join(Split(s, t), r)
  }

  /** One step of a split: the separator's next occurrence at `i` closes the part `s[p..i]`. */
  lemma SplitStep(s: string, sep: string, p: nat, i: int)
    requires sep != [] && p <= |s| && i == IndexOf(s, sep, p) && i != -1
    ensures p <= i && i + |sep| <= |s|
    ensures SplitFrom(s, sep, p) == [s[p..i]] + SplitFrom(s, sep, i + |sep|)
  {
    assert Clamp(p, 0, |s|) == p;
    assert MatchAt(s, sep, i);
  }

  lemma JoinCons(head: string, tail: seq<string>, sep: string)
    requires tail != []
    ensures Join([head] + tail, sep) == head + sep + Join(tail, sep)
  {
    var parts := [head] + tail;
    assert parts[0] == head && parts[1..] == tail;
  }

  lemma SplitFromNonEmpty(s: string, sep: string, p: nat)
    requires sep != [] && p <= |s|
    ensures |SplitFrom(s, sep, p)| >= 1
  {
  }

  lemma SplitFromLast(s: string, sep: string, p: nat)
    requires sep != [] && p <= |s| && IndexOf(s, sep, p) == -1
    ensures SplitFrom(s, sep, p) == [s[p..]]
  {
  }

  lemma Reassemble(s: string, sep: string, p: nat, i: nat)
    requires p <= i && MatchAt(s, sep, i)
    ensures s[p..] == s[p..i] + sep + s[i + |sep|..]
  {
    assert s[i..i + |sep|] == sep;
    assert s[p..] == s[p..i] + s[i..i + |sep|] + s[i + |sep|..];
  }

  /** Joining the first part of a split onto the rejoined rest. */
  lemma JoinStep(s: string, sep: string, p: nat, i: nat, rest: seq<string>)
    requires p <= i && MatchAt(s, sep, i) && rest != []
    requires Join(rest, sep) == s[i + |sep|..]
    ensures Join([s[p..i]] + rest, sep) == s[p..]
  {
    JoinCons(s[p..i], rest, sep);
    Reassemble(s, sep, p, i);
  }

  lemma {:induction false} SplitFromJoin(s: string, sep: string, p: nat)
    requires sep != [] && p <= |s|
    decreases |s| - p
    ensures Join(SplitFrom(s, sep, p), sep) == s[p..]
  {
    var i := IndexOf(s, sep, p);
    if i != -1 {
      SplitStep(s, sep, p, i);
      var q := i + |sep|;
      var rest := SplitFrom(s, sep, q);
      SplitFromNonEmpty(s, sep, q);
      SplitFromJoin(s, sep, q);
      JoinStep(s, sep, p, i, rest);
    } else {
      SplitFromLast(s, sep, p);
    }
  }

  lemma {:induction false} CharsJoin(s: string)
    decreases |s|
    ensures Join(Chars(s), []) == s
  {
    if |s| > 1 {
      assert Chars(s)[1..] == Chars(s[1..]);
      CharsJoin(s[1..]);
      assert s == [s[0]] + s[1..];
    }
  }

  /** Joining a split with its own separator gives the string back. */
  lemma SplitJoin(s: string, sep: string)
    ensures Join(Split(s, sep), sep) == s
  {
    if sep == [] {
      CharsJoin(s);
    } else {
      SplitFromJoin(s, sep, 0);
    }
  }

  /** The text between `p` and the next occurrence of `sep` does not contain `sep`. */
  lemma GapFree(s: string, sep: string, p: nat, i: int)
    requires sep != [] && p <= |s| && i == IndexOf(s, sep, p) && i != -1
    ensures !Contains(s[p..i], sep)
  {
    var gap := s[p..i];
    assert Clamp(p, 0, |s|) == p && MatchAt(s, sep, i);
    forall j ensures !MatchAt(gap, sep, j) {
      if 0 <= j && j + |sep| <= |gap| {
        var a, b := gap[j..j + |sep|], s[p + j..p + j + |sep|];
        assert |a| == |b| && forall k :: 0 <= k < |a| ==> a[k] == b[k];
        assert a == b;
        assert !MatchAt(s, sep, p + j);
      }
    }
  }

  /** The text after the last occurrence of `sep` does not contain `sep`. */
  lemma TailFree(s: string, sep: string, p: nat)
    requires sep != [] && p <= |s| && IndexOf(s, sep, p) == -1
    ensures !Contains(s[p..], sep)
  {
    var tail := s[p..];
    assert Clamp(p, 0, |s|) == p;
    forall j ensures !MatchAt(tail, sep, j) {
      if 0 <= j && j + |sep| <= |tail| {
        assert tail[j..j + |sep|] == s[p + j..p + j + |sep|];
        assert !MatchAt(s, sep, p + j);
      }
    }
  }

  lemma {:induction false} SplitFromPartsFree(s: string, sep: string, p: nat)
    requires sep != [] && p <= |s|
    decreases |s| - p
    ensures forall part :: part in SplitFrom(s, sep, p) ==> !Contains(part, sep)
  {
    var i := IndexOf(s, sep, p);
    if i != -1 {
      SplitStep(s, sep, p, i);
      SplitFromPartsFree(s, sep, i + |sep|);
      GapFree(s, sep, p, i);
    } else {
      TailFree(s, sep, p);
    }
  }

  /** No part of a split on a non-empty separator contains that separator. */
  lemma SplitPartsFree(s: string, sep: string)
    requires sep != []
    ensures forall p :: p in Split(s, sep) ==> !Contains(p, sep)
  {
    SplitFromPartsFree(s, sep, 0);
  }

  /**
    Replace-all, characterised without reference to its definition: the
    original text is cut into parts free of `t` that rebuild the text when
    joined with `t`, and the result joins the same parts with `r`.
   */
  lemma ReplaceAllParts(s: string, t: string, r: string)
    requires t != []
    ensures exists parts: seq<string> ::
      && Join(parts, t) == s
      && (forall p :: p in parts ==> !Contains(p, t))
      && ReplaceAll(s, t, r) == Join(parts, r)
  {
    var parts := Split(s, t);
    SplitJoin(s, t);
    SplitPartsFree(s, t);
    assert Join(parts, t) == s;
  }

  /** Replacing a string that does not occur changes nothing. */
  lemma ReplaceAllAbsent(s: string, t: string, r: string)
    requires !Contains(s, t)
    ensures ReplaceAll(s, t, r) == s
  {
    assert MatchAt(s, [], 0);
    assert Split(s, t) == [s[0..]];
  }

  /** Once a non-empty string occurs, its replacement occurs in the result. */
  lemma ReplaceAllIntroduces(s: string, t: string, r: string)
    requires t != [] && Contains(s, t)
    ensures Contains(ReplaceAll(s, t, r), r)
  {
    var i := IndexOf(s, t, 0);
    SplitStep(s, t, 0, i);
    var rest := SplitFrom(s, t, i + |t|);
    SplitFromNonEmpty(s, t, i + |t|);
    JoinCons(s[0..i], rest, r);
    var out := s[0..i] + r + Join(rest, r);
    assert out[i..i + |r|] == r;
    assert MatchAt(out, r, i);
  }

  /** Replacing a string by itself changes nothing. */
  lemma ReplaceAllSelf(s: string, t: string)
    ensures ReplaceAll(s, t, t) == s
  {
    SplitJoin(s, t);
  }

  /** With a single occurrence of `t`, right after `pre`, the replacement touches only that occurrence. */
  lemma ReplaceAllOnce(pre: string, t: string, post: string, r: string)
    requires t != []
    requires forall j :: j != |pre| ==> !MatchAt(pre + t + post, t, j)
    ensures ReplaceAll(pre + t + post, t, r) == pre + r + post
  {
    var s := pre + t + post;
    assert s[|pre|..|pre| + |t|] == t;
    assert MatchAt(s, t, |pre|);
    assert IndexOf(s, t, 0) == |pre|;
    SplitStep(s, t, 0, |pre|);
    assert IndexOf(s, t, |pre| + |t|) == -1;
    SplitFromLast(s, t, |pre| + |t|);
    assert s[0..|pre|] == pre;
    assert s[|pre| + |t|..] == post;
    assert Split(s, t) == [pre, post];
    JoinCons(pre, [post], r);
  }

  /**
    `t` occurs in `pre + t + post` only right after `pre` when `pre` lacks
    its first character, `post` is shorter than `t`, and no character of
    `t` within `|post|` of its start repeats its first one.
   */
  lemma OnlyMatch(pre: string, t: string, post: string)
    requires t != [] && |post| < |t|
    requires forall i :: 0 <= i < |pre| ==> pre[i] != t[0]
    requires forall d :: 0 < d <= |post| ==> t[d] != t[0]
    ensures forall j :: j != |pre| ==> !MatchAt(pre + t + post, t, j)
  {
    var s := pre + t + post;
    forall j | j != |pre| ensures !MatchAt(s, t, j) {
      if 0 <= j && j + |t| <= |s| {
        assert s[j..j + |t|][0] == s[j];
        if j < |pre| {
          assert s[j] == pre[j];
        } else {
          assert s[j] == t[j - |pre|];
        }
      }
    }
  }

  function LowerChar(c: char): char {
    if 'A' <= c <= 'Z' then (c as int + 32) as char else c
  }

  /** `s.toLowerCase()` restricted to the ASCII letters. */
  function ToLower(s: string): (r: string)
    ensures |r| == |s|
    ensures forall i :: 0 <= i < |r| ==> !('A' <= r[i] <= 'Z')
    ensures forall i :: 0 <= i < |r| ==> (r[i] == s[i] || r[i] as int == s[i] as int + 32)
    ensures forall i :: 0 <= i < |s| && !('A' <= s[i] <= 'Z') ==> r[i] == s[i]
  {
    seq(|s|, i requires 0 <= i < |s| => LowerChar(s[i]))
  }

  /** The characters matched by the regular-expression class `\s`. */
  predicate IsJsWhitespace(c: char) {
    || c == '\t' || c == '\n' || c == '\U{000B}' || c == '\U{000C}' || c == '\r' || c == ' '
    || c == '\U{00A0}' || c == '\U{1680}' || ('\U{2000}' <= c <= '\U{200A}')
    || c == '\U{2028}' || c == '\U{2029}' || c == '\U{202F}' || c == '\U{205F}'
    || c == '\U{3000}' || c == '\U{FEFF}'
  }

  function DigitChar(d: nat): char
    requires d < 10
  {
    ('0' as int + d) as char
  }

  /** Decimal rendering of a natural number, as `String(n)` gives it. */
  function NatToString(n: nat): (r: string)
    decreases n
    ensures |r| >= 1
    ensures forall i :: 0 <= i < |r| ==> '0' <= r[i] <= '9'
    ensures r[0] == '0' <==> n == 0
  {
    if n < 10 then [DigitChar(n)] else NatToString(n / 10) + [DigitChar(n % 10)]
  }

  /** The number a string of decimal digits denotes. */
  function DigitsValue(s: string): nat
    requires forall i :: 0 <= i < |s| ==> '0' <= s[i] <= '9'
    decreases |s|
  {
    if s == [] then 0 else DigitsValue(s[..|s| - 1]) * 10 + (s[|s| - 1] as int - '0' as int)
  }

  /** Reading the decimal rendering back gives the number. */
  lemma {:induction false} NatToStringValue(n: nat)
    decreases n
    ensures DigitsValue(NatToString(n)) == n
  {
    if n >= 10 {
      NatToStringValue(n / 10);
      var r := NatToString(n);
      assert r[..|r| - 1] == NatToString(n / 10);
    }
  }

  /** Decimal rendering of an integer, with a leading '-' when negative. */
  function IntToString(n: int): string {
    if n < 0 then "-" + NatToString(-n) else NatToString(n)
  }
}

=== FILE: machine.dfy ===
/**
  The component as a transition system: every way the page, the user or
  the host can drive it, and the invariants every step preserves.
 */
module Machine {
  import opened Wrappers
  import opened JsString
  import opened Mentions
  import opened Component
  import opened Properties

  /** One thing that can happen to a mounted component. */
  datatype Step =
    | Register(trigger: string, settings: TriggerSettings)      // add
    | Edit(text: string, selStart: nat, selEnd: nat)            // the user edits; `input` fires
    | Select(selStart: nat, selEnd: nat)                        // the caret moves without an edit
    | Press(key: Key)                                            // keydown
    | Click(item: nat)                                           // mousedown on a listed suggestion
    | Blur                                                       // the field loses focus
    | Defer                                                      // the oldest deferred call runs
    | Answer(request: nat, results: seq<Mention>)                // a host fetch calls back
    | CallAddMention(trigger: string, mention: Mention)
    | CallInsert(trigger: string, mention: Mention)
    | CallReset
    | CallSetMentions(trigger: string, mentions: seq<Mention>)

  /** What the page can actually deliver in a given state. */
  ghost predicate Enabled(st: State, step: Step) {
    match step
    case Edit(text, s, e) => s <= e <= |text|
    case Select(s, e) => s <= e <= |st.text|
    case Click(i) => st.list.visible && i < |st.list.items|
    case Answer(i, _) => i < |st.requests| && st.requests[i].answered
    case _ => true
  }

  function Next(st: State, step: Step): State
    requires Enabled(st, step)
  {
    match step
    case Register(t, settings) => Add(st, t, settings)
    case Edit(text, s, e) => OnInput(st.(text := text, selStart := s, selEnd := e))
    case Select(s, e) => st.(selStart := s, selEnd := e)
    case Press(key) => OnKeyDown(st, key).st
    case Click(i) => OnSuggestionClick(st, st.list.items[i])
    case Blur => Hide(st)
    case Defer => RunDeferred(st)
    case Answer(i, results) => FetchCallback(st, i, results)
    case CallAddMention(t, m) => AddMention(st, t, m)
    case CallInsert(t, m) => Insert(st, t, m)
    case CallReset => Reset(st)
    case CallSetMentions(t, list) => SetMentions(st, t, list)
  }

  lemma HideValid(st: State)
    requires Valid(st)
    ensures Valid(Hide(st))
  {
  }

  lemma UpdateMentionsValid(st: State)
    requires Valid(st)
    ensures Valid(UpdateMentions(st))
  {
  }

  lemma CommitValid(st: State, trigger: string, m: Mention, newText: string, caret: nat)
    requires Valid(st)
    ensures Valid(Commit(st, trigger, m, newText, caret))
  {
  }

  lemma InputValid(st: State)
    requires Valid(st)
    ensures Valid(OnInput(st))
  {
    if UpdateValues(st).Success? {
      UpdateMentionsValid(UpdateValues(st).value);
    }
  }

  lemma PressActiveValid(st: State)
    requires Valid(st)
    ensures Valid(PressActive(st))
  {
    if st.list.active.Some? && st.list.active.value < |st.list.items| {
      ClickValid(st, st.list.items[st.list.active.value]);
    }
  }

  lemma KeyDownValid(st: State, key: Key)
    requires Valid(st)
    ensures Valid(OnKeyDown(st, key).st)
  {
    if key.code != KeyBackspace && st.list.visible {
      if key.code == KeyReturn || key.code == KeyTab || key.code == KeySpace {
        PressActiveValid(st);
      } else if key.code == KeyEsc {
        HideValid(st);
      }
    }
  }

  lemma PopulateValid(st: State, trigger: string, results: seq<Mention>)
    requires Valid(st)
    ensures Valid(PopulateDropdown(st, trigger, results))
  {
    if results != [] {
      var r := PopulateDropdown(st, trigger, results);
      forall u | u in r.list.items ensures u in r.list.suggestions {
        var i :| 0 <= i < |results| && r.list.items[i] == u;
      }
    }
  }

  lemma ResetValid(st: State)
    requires Valid(st)
    ensures Valid(Reset(st))
  {
  }

  lemma SetMentionsValid(st: State, trigger: string, list: seq<Mention>)
    requires Valid(st)
    ensures Valid(SetMentions(st, trigger, list))
  {
  }

  lemma ClickValid(st: State, uid: string)
    requires Valid(st)
    ensures Valid(OnSuggestionClick(st, uid))
  {
    if uid in st.list.suggestions {
      var m := st.list.suggestions[uid];
      var sp := MentionSplice(st.text, st.selEnd, CurrentTriggerText(st), st.query, m.value);
      CommitValid(st, CurrentTriggerText(st), m, sp.text, sp.caret);
    }
  }

  lemma RunDeferredValid(st: State)
    requires Valid(st)
    ensures Valid(RunDeferred(st))
  {
  }

  /** Every step keeps the selection inside the text, the registry consistent and the list coherent. */
  lemma NextPreservesValid(st: State, step: Step)
    requires Valid(st) && Enabled(st, step)
    ensures Valid(Next(st, step))
  {
    match step
    case Register(t, settings) =>
    case Edit(text, s, e) => InputValid(st.(text := text, selStart := s, selEnd := e));
    case Select(s, e) =>
    case Press(key) => KeyDownValid(st, key);
    case Click(i) => ClickValid(st, st.list.items[i]);
    case Blur => HideValid(st);
    case Defer => RunDeferredValid(st);
    case Answer(i, results) => PopulateValid(st.(currentTrigger := Some(st.requests[i].trigger)), st.requests[i].trigger, results);
    case CallAddMention(t, m) =>
      var sp := MentionSplice(st.text, st.selEnd, t, st.query, m.value);
      CommitValid(st, t, m, sp.text, sp.caret);
    case CallInsert(t, m) =>
      var sp := InsertSplice(st.text, st.selEnd, m.value);
      CommitValid(st, t, m, sp.text, sp.caret);
    case CallReset => ResetValid(st);
    case CallSetMentions(t, list) => SetMentionsValid(st, t, list);
  }

  /** Every mention list belongs to a registered trigger. */
  ghost predicate Registered(s: Store) {
    forall k :: k in s.mentions ==> k in s.triggers
  }

  /** With every list registered, `updateValues` cannot throw. */
  lemma RegisteredRenders(st: State)
    requires Registered(st.store)
    ensures UpdateValues(st).Success?
  {
    assert Configured(st.store);
  }

  lemma CommitRegistered(st: State, trigger: string, m: Mention, newText: string, caret: nat)
    requires Registered(st.store)
    ensures Registered(Commit(st, trigger, m, newText, caret).store)
  {
  }

  lemma ClickRegistered(st: State, uid: string)
    requires Registered(st.store)
    ensures Registered(OnSuggestionClick(st, uid).store)
  {
    if uid in st.list.suggestions {
      var m := st.list.suggestions[uid];
      var sp := MentionSplice(st.text, st.selEnd, CurrentTriggerText(st), st.query, m.value);
      CommitRegistered(st, CurrentTriggerText(st), m, sp.text, sp.caret);
    }
  }

  lemma KeyDownRegistered(st: State, key: Key)
    requires Registered(st.store)
    ensures Registered(OnKeyDown(st, key).st.store)
  {
    PressActiveRegistered(st);
    var o := OnKeyDown(st, key);
    assert o.st.store == st.store || o.st == PressActive(st);
  }

  lemma PressActiveRegistered(st: State)
    requires Registered(st.store)
    ensures Registered(PressActive(st).store)
  {
    if st.list.active.Some? && st.list.active.value < |st.list.items| {
      ClickRegistered(st, st.list.items[st.list.active.value]);
    }
  }

  lemma InputRegistered(st: State)
    requires Registered(st.store)
    ensures Registered(OnInput(st).store)
  {
  }

  /**
    Only `setMentions` on a trigger that was never added can break
    registration; every other step keeps it, and with it rendering never
    throws.
   */
  lemma NextPreservesRegistered(st: State, step: Step)
    requires Registered(st.store) && Enabled(st, step)
    requires step.CallSetMentions? ==> step.trigger in st.store.triggers
    ensures Registered(Next(st, step).store)
    ensures UpdateValues(Next(st, step)).Success?
  {
    NextKeepsRegistered(st, step);
    RegisteredRenders(Next(st, step));
  }

  lemma NextKeepsRegistered(st: State, step: Step)
    requires Registered(st.store) && Enabled(st, step)
    requires step.CallSetMentions? ==> step.trigger in st.store.triggers
    ensures Registered(Next(st, step).store)
  {
    match step {
      case Edit(text, s, e) => InputRegistered(st.(text := text, selStart := s, selEnd := e));
      case Press(key) => KeyDownRegistered(st, key);
      case Click(i) => ClickRegistered(st, st.list.items[i]);
      case CallAddMention(t, m) =>
        var sp := MentionSplice(st.text, st.selEnd, t, st.query, m.value);
        CommitRegistered(st, t, m, sp.text, sp.caret);
      case CallInsert(t, m) =>
        var sp := InsertSplice(st.text, st.selEnd, m.value);
        CommitRegistered(st, t, m, sp.text, sp.caret);
      case _ =>
    }
  }

  /** No trigger's list holds two mentions with the same value. */
  ghost predicate NoDuplicates(s: Store) {
    forall k :: k in s.mentions ==> DistinctValues(s.mentions[k])
  }

  lemma ClickNoDuplicates(st: State, uid: string)
    requires NoDuplicates(st.store)
    ensures NoDuplicates(OnSuggestionClick(st, uid).store)
  {
    if uid in st.list.suggestions {
      var m := st.list.suggestions[uid];
      var sp := MentionSplice(st.text, st.selEnd, CurrentTriggerText(st), st.query, m.value);
      CommitNoDuplicates(st, CurrentTriggerText(st), m, sp.text, sp.caret);
    }
  }

  lemma KeyDownNoDuplicates(st: State, key: Key)
    requires NoDuplicates(st.store)
    ensures NoDuplicates(OnKeyDown(st, key).st.store)
  {
    if st.list.active.Some? && st.list.active.value < |st.list.items| {
      ClickNoDuplicates(st, st.list.items[st.list.active.value]);
    }
  }

  lemma InputNoDuplicates(st: State)
    requires NoDuplicates(st.store)
    ensures NoDuplicates(OnInput(st).store)
  {
    if UpdateValues(st).Success? {
      UpdateMentionsKeepsDistinct(UpdateValues(st).value);
    }
  }

  lemma CommitNoDuplicates(st: State, trigger: string, m: Mention, newText: string, caret: nat)
    requires NoDuplicates(st.store)
    ensures NoDuplicates(Commit(st, trigger, m, newText, caret).store)
  {
  }

  /**
    Commits de-duplicate by value and pruning only drops mentions, so
    duplicates can only come from a list handed to `setMentions`.
   */
  lemma RegisterNoDuplicates(st: State, t: string, settings: TriggerSettings)
    requires NoDuplicates(st.store)
    ensures NoDuplicates(Add(st, t, settings).store)
  {
  }

  lemma ResetNoDuplicates(st: State)
    requires NoDuplicates(st.store)
    ensures NoDuplicates(Reset(st).store)
  {
  }

  lemma SetMentionsNoDuplicates(st: State, t: string, list: seq<Mention>)
    requires NoDuplicates(st.store) && DistinctValues(list)
    ensures NoDuplicates(SetMentions(st, t, list).store)
  {
  }

  /** Deferred calls never touch the mention lists or the registry. */
  lemma RunDeferredKeepsStore(st: State)
    ensures RunDeferred(st).store == st.store
  {
  }

  lemma NextPreservesNoDuplicates(st: State, step: Step)
    requires NoDuplicates(st.store) && Enabled(st, step)
    requires step.CallSetMentions? ==> DistinctValues(step.mentions)
    ensures NoDuplicates(Next(st, step).store)
  {
    var r := Next(st, step);
    match step
    case Edit(text, s, e) =>
      var typed := st.(text := text, selStart := s, selEnd := e);
      InputNoDuplicates(typed);
      assert r == OnInput(typed);
    case Press(key) =>
      KeyDownNoDuplicates(st, key);
      assert r == OnKeyDown(st, key).st;
    case Click(i) =>
      ClickNoDuplicates(st, st.list.items[i]);
      assert r == OnSuggestionClick(st, st.list.items[i]);
    case CallAddMention(t, m) =>
      var sp := MentionSplice(st.text, st.selEnd, t, st.query, m.value);
      CommitNoDuplicates(st, t, m, sp.text, sp.caret);
      assert r == Commit(st, t, m, sp.text, sp.caret);
    case CallInsert(t, m) =>
      var sp := InsertSplice(st.text, st.selEnd, m.value);
      CommitNoDuplicates(st, t, m, sp.text, sp.caret);
      assert r == Commit(st, t, m, sp.text, sp.caret);
    case Register(t, settings) =>
      RegisterNoDuplicates(st, t, settings);
      assert r == Add(st, t, settings);
    case CallReset =>
      ResetNoDuplicates(st);
      assert r == Reset(st);
    case CallSetMentions(t, list) =>
      SetMentionsNoDuplicates(st, t, list);
      assert r == SetMentions(st, t, list);
    case Select(_, _) =>
      assert r.store == st.store;
    case Blur =>
      assert r == Hide(st);
    case Defer =>
      RunDeferredKeepsStore(st);
      assert r == RunDeferred(st);
    case Answer(i, results) =>
      assert r == FetchCallback(st, i, results);
  }
}

=== FILE: mentions.dfy ===
/**
  Mentions and the per-trigger mention lists: the record a suggestion
  becomes when committed, the default formatters a trigger is registered
  with, de-duplication by `value`, and pruning against the current text.
 */
module Mentions {
  import opened Wrappers
  import opened JsString

  /** A mention's `id`: `null` or `undefined`, a number, or a string. */
  datatype Id = NoId | Num(n: int) | Str(s: string)

  /** `String(id)`, and what `<%= id %>` prints (nothing for `null` or `undefined`). */
  function IdText(id: Id): string {
    match id
    case NoId => ""
    case Num(n) => IntToString(n)
    case Str(s) => s
  }

  /** JavaScript truthiness of an id: `null`, `undefined`, 0 and "" are falsy. */
  predicate IdTruthy(id: Id) {
    match id
    case NoId => false
    case Num(n) => n != 0
    case Str(s) => s != ""
  }

  /** A candidate or committed mention; `value` is its display text and its identity. */
  datatype Mention = Mention(id: Id, name: string, value: string)

  /**
    A registered trigger: whether its `fetch` is the host's own (the
    default `$.noop` never calls back), and its formatters for the syntax
    token and the overlay markup of a mention.
   */
  datatype TriggerConfig = TriggerConfig(fetches: bool, syntax: Mention -> string, highlight: Mention -> string)

  /** The settings passed to `add`; an absent setting falls back to the default. */
  datatype TriggerSettings = TriggerSettings(
    fetch: bool,
    syntax: Option<Mention -> string>,
    highlight: Option<Mention -> string>)

  /** The default `mentionItemSyntax` template `@[<%= value %>](<%= id %>)`. */
  function DefaultSyntax(m: Mention): (r: string)
    ensures |r| == |m.value| + |IdText(m.id)| + 5
    ensures r[..2] == "@[" && r[|r| - 1] == ')'
    ensures r[2..2 + |m.value|] == m.value
    ensures r[2 + |m.value|..] == "](" + IdText(m.id) + ")"
  {
    var r := "@[" + m.value + "](" + IdText(m.id) + ")";
    assert r[2..2 + |m.value|] == m.value;
    assert r[2 + |m.value|..] == "](" + IdText(m.id) + ")";
    r
  }

  /** The default `mentionItemHighlight` template `<strong><%= value %></strong>`. */
  function DefaultHighlight(m: Mention): (r: string)
    ensures |r| == |m.value| + 17
    ensures r[..8] == "<strong>" && r[8 + |m.value|..] == "</strong>"
    ensures r[8..8 + |m.value|] == m.value
  {
    var r := "<strong>" + m.value + "</strong>";
    assert r[..8] == "<strong>";
    assert r[8..8 + |m.value|] == m.value;
    assert r[8 + |m.value|..] == "</strong>";
    r
  }

  /** `$.extend({}, defaultTriggerSettings, triggerSettings)`: given formatters override the defaults. */
  function Configure(settings: TriggerSettings): (c: TriggerConfig)
    ensures c.fetches == settings.fetch
    ensures settings.syntax.None? ==> c.syntax == DefaultSyntax
    ensures settings.highlight.None? ==> c.highlight == DefaultHighlight
    ensures settings.syntax.Some? ==> c.syntax == settings.syntax.value
    ensures settings.highlight.Some? ==> c.highlight == settings.highlight.value
  {
    TriggerConfig(
      settings.fetch,
      if settings.syntax.Some? then settings.syntax.value else DefaultSyntax,
      if settings.highlight.Some? then settings.highlight.value else DefaultHighlight)
  }

  /** `_hasMention`: some mention in the list has the same `value`. */
  predicate HasMention(list: seq<Mention>, m: Mention) {
    exists i :: 0 <= i < |list| && list[i].value == m.value
  }

  /**
    `_.find` in `_hasMention`: the first listed mention with the same
    `value`; the result is truthy exactly when `HasMention` holds.
   */
  function FindMention(list: seq<Mention>, m: Mention): (r: Option<Mention>)
    decreases |list|
    ensures r.Some? <==> HasMention(list, m)
    ensures r.Some? ==> exists i :: 0 <= i < |list| && list[i] == r.value && r.value.value == m.value
                                   && forall j :: 0 <= j < i ==> list[j].value != m.value
  {
    if list == [] then None
    else if list[0].value == m.value then Some(list[0])
    else
      var r := FindMention(list[1..], m);
      assert HasMention(list, m) <==> HasMention(list[1..], m) by {
        if HasMention(list[1..], m) {
          var i :| 0 <= i < |list[1..]| && list[1..][i].value == m.value;
          assert list[i + 1].value == m.value;
        }
        if HasMention(list, m) {
          var i :| 0 <= i < |list| && list[i].value == m.value;
          assert i > 0 && list[1..][i - 1].value == m.value;
        }
      }
      if r.Some? then
        var i :| 0 <= i < |list[1..]| && list[1..][i] == r.value && r.value.value == m.value
                 && forall j :: 0 <= j < i ==> list[1..][j].value != m.value;
        assert list[i + 1] == r.value;
        assert forall j :: 0 <= j < i + 1 ==> list[j].value != m.value by {
          forall j | 0 <= j < i + 1 ensures list[j].value != m.value {
            if j > 0 { assert list[j] == list[1..][j - 1]; }
          }
        }
        r
      else r
  }

  /** No two mentions of a list share a `value`. */
  predicate DistinctValues(list: seq<Mention>) {
    forall i, j :: 0 <= i < j < |list| ==> list[i].value != list[j].value
  }

  /** The push in `_add`: the mention is appended unless its `value` is already listed. */
  function AppendUnique(list: seq<Mention>, m: Mention): (r: seq<Mention>)
    ensures HasMention(r, m)
    ensures HasMention(list, m) ==> r == list
    ensures !HasMention(list, m) ==> r == list + [m]
    ensures |r| == if HasMention(list, m) then |list| else |list| + 1
    ensures r[..|list|] == list
    ensures DistinctValues(list) ==> DistinctValues(r)
  {
    if HasMention(list, m) then list
    else
      var r := list + [m];
      assert r[|list|] == m;
      r
  }

  /** Adding the same mention twice is the same as adding it once. */
  lemma AppendUniqueIdempotent(list: seq<Mention>, m: Mention)
    ensures AppendUnique(AppendUnique(list, m), m) == AppendUnique(list, m)
  {
  }

  /** `a` is `b` with some elements dropped, order kept. */
  predicate IsSubsequence<T(==)>(a: seq<T>, b: seq<T>)
    decreases |b|
  {
    if a == [] then true
    else if b == [] then false
    else if a[0] == b[0] then IsSubsequence(a[1..], b[1..])
    else IsSubsequence(a, b[1..])
  }

  /** The survival test of `updateMentions`: a non-empty `value` that still occurs in the text. */
  predicate Keeps(text: string, m: Mention) {
    m.value != [] && Contains(text, m.value)
  }

  /** The `_.reject` of `updateMentions`: drop mentions with an empty or vanished `value`. */
  function PruneList(list: seq<Mention>, text: string): (r: seq<Mention>)
    decreases |list|
    ensures IsSubsequence(r, list)
    ensures forall m :: m in r <==> m in list && Keeps(text, m)
    ensures |r| <= |list|
    ensures |r| == |list| <==> forall m :: m in list ==> Keeps(text, m)
    ensures |r| == |list| ==> r == list
    ensures forall m :: multiset(r)[m] == if Keeps(text, m) then multiset(list)[m] else 0
  {
    if list == [] then []
    else
      var rest := PruneList(list[1..], text);
      var r := if Keeps(text, list[0]) then [list[0]] + rest else rest;
      assert Keeps(text, list[0]) ==> r[0] == list[0] && r[1..] == rest;
      PruneCountStep(list, rest, r, text);
      PruneShapeStep(list, rest, r, text);
      r
  }

  /** One step of the prune keeps the multiplicity of every kept mention and drops the others. */
  lemma PruneCountStep(list: seq<Mention>, rest: seq<Mention>, r: seq<Mention>, text: string)
    requires list != []
    requires forall m :: multiset(rest)[m] == if Keeps(text, m) then multiset(list[1..])[m] else 0
    requires r == if Keeps(text, list[0]) then [list[0]] + rest else rest
    ensures forall m :: multiset(r)[m] == if Keeps(text, m) then multiset(list)[m] else 0
  {
    assert list == [list[0]] + list[1..];
    assert multiset(list) == multiset([list[0]]) + multiset(list[1..]);
    if Keeps(text, list[0]) {
      assert multiset(r) == multiset([list[0]]) + multiset(rest);
    }
  }

  /** One step of the prune keeps the members, the length bound and the all-kept case. */
  lemma PruneShapeStep(list: seq<Mention>, rest: seq<Mention>, r: seq<Mention>, text: string)
    requires list != []
    requires forall m :: m in rest <==> m in list[1..] && Keeps(text, m)
    requires |rest| <= |list[1..]|
    requires |rest| == |list[1..]| <==> forall m :: m in list[1..] ==> Keeps(text, m)
    requires |rest| == |list[1..]| ==> rest == list[1..]
    requires r == if Keeps(text, list[0]) then [list[0]] + rest else rest
    ensures forall m :: m in r <==> m in list && Keeps(text, m)
    ensures |r| <= |list|
    ensures |r| == |list| <==> forall m :: m in list ==> Keeps(text, m)
    ensures |r| == |list| ==> r == list
  {
    assert list == [list[0]] + list[1..];
    assert forall m :: m in list <==> m == list[0] || m in list[1..];
  }

  /** Pruning twice against the same text is pruning once. */
  lemma {:induction false} PruneIdempotent(list: seq<Mention>, text: string)
    ensures PruneList(PruneList(list, text), text) == PruneList(list, text)
  {
    var r := PruneList(list, text);
    assert forall m :: m in r ==> Keeps(text, m);
  }

  /** A subsequence of a list with distinct values has distinct values. */
  lemma {:induction false} SubsequenceDistinct(a: seq<Mention>, b: seq<Mention>)
    decreases |b|
    requires IsSubsequence(a, b) && DistinctValues(b)
    ensures DistinctValues(a)
  {
    if a != [] && b != [] {
      assert DistinctValues(b[1..]);
      if a[0] == b[0] {
        SubsequenceDistinct(a[1..], b[1..]);
        SubsequenceMembers(a[1..], b[1..]);
        forall j | 0 < j < |a| ensures a[0].value != a[j].value {
          assert a[j] == a[1..][j - 1];
          var k :| 0 <= k < |b[1..]| && b[1..][k] == a[j];
          assert b[k + 1] == a[j];
        }
      } else {
        SubsequenceDistinct(a, b[1..]);
      }
    }
  }

  /** Every element of a subsequence is found in the longer sequence. */
  lemma {:induction false} SubsequenceMembers<T>(a: seq<T>, b: seq<T>)
    decreases |b|
    requires IsSubsequence(a, b)
    ensures forall i :: 0 <= i < |a| ==> exists k :: 0 <= k < |b| && b[k] == a[i]
  {
    if a != [] && b != [] {
      if a[0] == b[0] {
        SubsequenceMembers(a[1..], b[1..]);
        forall i | 0 < i < |a| ensures exists k :: 0 <= k < |b| && b[k] == a[i] {
          assert a[i] == a[1..][i - 1];
          var k :| 0 <= k < |b[1..]| && b[1..][k] == a[1..][i - 1];
          assert b[k + 1] == a[i];
        }
        assert b[0] == a[0];
      } else {
        SubsequenceMembers(a, b[1..]);
        forall i | 0 <= i < |a| ensures exists k :: 0 <= k < |b| && b[k] == a[i] {
          var k :| 0 <= k < |b[1..]| && b[1..][k] == a[i];
          assert b[k + 1] == a[i];
        }
      }
    }
  }

  /** Pruning never introduces duplicate values. */
  lemma PruneKeepsDistinct(list: seq<Mention>, text: string)
    requires DistinctValues(list)
    ensures DistinctValues(PruneList(list, text))
  {
    SubsequenceDistinct(PruneList(list, text), list);
  }
}

=== FILE: properties.dfy ===
/**
  Properties that relate several handlers of the component, or one handler
  to an independent description of what it should do.
 */
module Properties {
  import opened Wrappers
  import opened JsString
  import opened Mentions
  import opened Sync
  import opened Detect
  import opened Component

  /** The removal events name exactly the lists that changed length, each with its new contents. */
  lemma {:induction false} RemovalEventsSpec(keys: seq<string>, before: map<string, seq<Mention>>,
                                             after: map<string, seq<Mention>>)
    decreases |keys|
    ensures forall e :: e in RemovalEvents(keys, before, after) <==>
      exists k :: k in keys && k in before && k in after && |after[k]| != |before[k]| && e == MentionRemove(after[k], k)
  {
    if keys != [] {
      RemovalEventsSpec(keys[1..], before, after);
      assert forall k :: k in keys <==> k == keys[0] || k in keys[1..];
    }
  }

  /**
    `updateMentions` fires `mentionremove` for a trigger exactly when one of
    its mentions has an empty value or a value no longer in the text, and
    fires nothing else.
   */
  lemma UpdateMentionsFires(st: State)
    requires StoreValid(st.store)
    ensures var r := UpdateMentions(st);
      && (forall e :: e in NewEvents(st, r) ==> e.MentionRemove?)
      && (forall k :: k in st.store.mentions ==>
            (MentionRemove(r.store.mentions[k], k) in NewEvents(st, r)
             <==> exists m :: m in st.store.mentions[k] && !Keeps(st.text, m)))
  {
    var r := UpdateMentions(st);
    var before, after := st.store.mentions, r.store.mentions;
    assert NewEvents(st, r) == RemovalEvents(st.store.mentionKeys, before, after);
    RemovalEventsSpec(st.store.mentionKeys, before, after);
    forall k | k in before
      ensures MentionRemove(after[k], k) in NewEvents(st, r) <==> exists m :: m in before[k] && !Keeps(st.text, m)
    {
      assert after[k] == PruneList(before[k], st.text);
      assert k in st.store.mentionKeys;
    }
  }

  lemma RemovalEventsNone(keys: seq<string>, before: map<string, seq<Mention>>, after: map<string, seq<Mention>>)
    requires forall k :: k in before && k in after ==> |after[k]| == |before[k]|
    ensures RemovalEvents(keys, before, after) == []
  {
    RemovalEventsSpec(keys, before, after);
  }

  /** Pruning every list twice against one text is pruning once. */
  lemma PrunedMentionsIdempotent(mentions: map<string, seq<Mention>>, text: string)
    ensures PrunedMentions(PrunedMentions(mentions, text), text) == PrunedMentions(mentions, text)
  {
    var once := PrunedMentions(mentions, text);
    forall k | k in once
      ensures PruneList(once[k], text) == once[k]
    {
      PruneIdempotent(mentions[k], text);
    }
  }

  /** A second `updateMentions` against the same text changes nothing and fires nothing. */
  lemma UpdateMentionsIdempotent(st: State)
    ensures var once := UpdateMentions(st);
      var twice := UpdateMentions(once);
      twice.store == once.store && twice.events == once.events
  {
    var once := UpdateMentions(st);
    var twice := UpdateMentions(once);
    var pruned := PrunedMentions(st.store.mentions, st.text);
    assert once.store.mentions == pruned && once.text == st.text;
    PrunedMentionsIdempotent(st.store.mentions, st.text);
    assert twice.store.mentions == PrunedMentions(pruned, st.text) == once.store.mentions;
    RemovalEventsNone(once.store.mentionKeys, once.store.mentions, twice.store.mentions);
    assert twice.events == once.events + [];
  }

  /** Pruning keeps every list free of duplicate values. */
  lemma UpdateMentionsKeepsDistinct(st: State)
    requires forall k :: k in st.store.mentions ==> DistinctValues(st.store.mentions[k])
    ensures var r := UpdateMentions(st);
      forall k :: k in r.store.mentions ==> DistinctValues(r.store.mentions[k])
  {
    forall k | k in st.store.mentions {
      PruneKeepsDistinct(st.store.mentions[k], st.text);
    }
  }

  /** Committing the same mention a second time leaves the trigger's list as the first commit made it. */
  lemma CommitTwice(st: State, trigger: string, m: Mention, text1: string, caret1: nat, text2: string, caret2: nat)
    requires trigger in st.store.mentions
    ensures var once := Commit(st, trigger, m, text1, caret1);
      var twice := Commit(once, trigger, m, text2, caret2);
      twice.store.mentions == once.store.mentions
  {
    var once := Commit(st, trigger, m, text1, caret1);
    var twice := Commit(once, trigger, m, text2, caret2);
    AppendUniqueIdempotent(st.store.mentions[trigger], m);
    assert twice.store.mentions[trigger] == once.store.mentions[trigger];
  }

  /**
    A mention committed with a text that still holds its value survives the
    prune of the next input event: the list keeps a mention with that value.
   */
  lemma CommittedSurvives(st: State, trigger: string, m: Mention, newText: string, caret: nat)
    requires trigger in st.store.mentions && Keeps(newText, m)
    ensures var r := Commit(st, trigger, m, newText, caret);
      && HasMention(r.store.mentions[trigger], m)
      && HasMention(UpdateMentions(r).store.mentions[trigger], m)
  {
    var r := Commit(st, trigger, m, newText, caret);
    assert r.text == newText && HasMention(r.store.mentions[trigger], m);
    PruneSurvives(r, trigger, m);
  }

  /** A listed value that still occurs in the text is still listed after `updateMentions`. */
  lemma PruneSurvives(st: State, trigger: string, m: Mention)
    requires trigger in st.store.mentions && HasMention(st.store.mentions[trigger], m) && Keeps(st.text, m)
    ensures HasMention(UpdateMentions(st).store.mentions[trigger], m)
  {
    var list := st.store.mentions[trigger];
    assert UpdateMentions(st).store.mentions[trigger] == PruneList(list, st.text);
    PruneKeepsValue(list, st.text, m);
  }

  /** Pruning keeps some mention with a value that is non-empty and still in the text. */
  lemma PruneKeepsValue(list: seq<Mention>, text: string, m: Mention)
    requires HasMention(list, m) && Keeps(text, m)
    ensures HasMention(PruneList(list, text), m)
  {
    var i :| 0 <= i < |list| && list[i].value == m.value;
    assert Keeps(text, list[i]);
    var pruned := PruneList(list, text);
    assert list[i] in pruned;
    var j :| 0 <= j < |pruned| && pruned[j] == list[i];
  }

  /** A mention added by `addMention` survives the next prune. */
  lemma AddedMentionSurvives(st: State, trigger: string, m: Mention)
    requires trigger in st.store.mentions && m.value != []
    ensures var r := AddMention(st, trigger, m);
      && HasMention(r.store.mentions[trigger], m)
      && HasMention(UpdateMentions(r).store.mentions[trigger], m)
  {
    var s := MentionSplice(st.text, st.selEnd, trigger, st.query, m.value);
    assert Keeps(s.text, m);
    CommittedSurvives(st, trigger, m, s.text, s.caret);
  }

  /** The same for `insert`. */
  lemma InsertedMentionSurvives(st: State, trigger: string, m: Mention)
    requires trigger in st.store.mentions && m.value != []
    ensures var r := Insert(st, trigger, m);
      && HasMention(r.store.mentions[trigger], m)
      && HasMention(UpdateMentions(r).store.mentions[trigger], m)
  {
    var s := InsertSplice(st.text, st.selEnd, m.value);
    var k := Min(st.selEnd, |st.text|);
    assert s.text[k..s.caret][..|m.value|] == m.value;
    assert MatchAt(s.text, m.value, k);
    assert Keeps(s.text, m);
    CommittedSurvives(st, trigger, m, s.text, s.caret);
  }

  /** After `reset`, every list reads back empty and `val()` is the empty text. */
  lemma ResetClears(st: State, trigger: string)
    requires trigger in st.store.mentions && trigger != []
    ensures GetMentions(Reset(st), Some(trigger)) == Listed(Some([]))
    ensures Val(Reset(st)) == []
  {
  }

  /** `getMentions(trigger)` reads back what `setMentions(trigger, …)` stored. */
  lemma SetThenGet(st: State, trigger: string, list: seq<Mention>)
    requires trigger != []
    ensures GetMentions(SetMentions(st, trigger, list), Some(trigger)) == Listed(Some(list))
  {
  }

  /** Down then Up returns to the same active item when there is a next one. */
  lemma DownThenUp(st: State, shift: bool, alt: bool)
    requires DropdownValid(st.list) && st.list.visible
    requires st.list.active.Some? && st.list.active.value + 1 < |st.list.items|
    ensures var down := OnKeyDown(st, Key(KeyDown, shift, alt));
      && down.st.list.active == Some(st.list.active.value + 1)
      && OnKeyDown(down.st, Key(KeyUp, shift, alt)).st == st
  {
  }

  /** Up then Down returns to the same active item when there is a previous one. */
  lemma UpThenDown(st: State, shift: bool, alt: bool)
    requires DropdownValid(st.list) && st.list.visible
    requires st.list.active.Some? && st.list.active.value > 0
    ensures var up := OnKeyDown(st, Key(KeyUp, shift, alt));
      && up.st.list.active == Some(st.list.active.value - 1)
      && OnKeyDown(up.st, Key(KeyDown, shift, alt)).st == st
  {
  }

  /** Once Escape has closed the list, every key but Backspace passes through untouched. */
  lemma EscapeThenPassThrough(st: State, key: Key, shift: bool, alt: bool)
    requires st.list.visible && key.code != KeyBackspace
    ensures var closed := OnKeyDown(st, Key(KeyEsc, shift, alt)).st;
      OnKeyDown(closed, key) == KeyOutcome(closed, Some(true))
  {
  }

  /**
    With one-character triggers, the trigger handed to a deferred search is
    always a registered trigger: the character found is the occurrence of
    the closest trigger.
   */
  lemma DetectedTriggerRegistered(buffer: string, keys: seq<string>, current: string)
    requires forall k :: k in keys ==> |k| == 1
    ensures var d := DetectTrigger(buffer, keys, current);
      d.index > -1 ==> d.triggerChar in keys
  {
    var d := DetectTrigger(buffer, keys, current);
    if d.index > -1 {
      var k := ClosestTriggerChar(buffer, keys);
    }
  }

  /** The character at the closest trigger position is the registered trigger found there. */
  lemma ClosestTriggerChar(buffer: string, keys: seq<string>) returns (k: string)
    requires forall k :: k in keys ==> |k| == 1
    requires ClosestTrigger(buffer, keys) != -1
    ensures k in keys && CharAt(buffer, ClosestTrigger(buffer, keys)) == k
  {
    var top := ClosestTrigger(buffer, keys);
    k :| k in keys && LastIndexOf(buffer, k, |buffer|) == top;
    assert |k| == 1 && MatchAt(buffer, k, top);
    assert buffer[top..top + 1] == k;
    assert k == [buffer[top]];
  }

  /** So a search queued by `_onInput` with one-character triggers finds its configuration. */
  lemma InputSearchesRegistered(st: State)
    requires forall k :: k in st.store.triggerKeys ==> |k| == 1 && k in st.store.triggers
    ensures var r := OnInput(st);
      |r.tasks| > |st.tasks| ==>
        var last := r.tasks[|r.tasks| - 1];
        last.DeferredSearch? && last.trigger in r.store.triggers
  {
    var r := OnInput(st);
    if UpdateValues(st).Success? {
      var d := DetectTrigger(Buffer(st), st.store.triggerKeys, CurrentTriggerText(st));
      DetectedTriggerRegistered(Buffer(st), st.store.triggerKeys, CurrentTriggerText(st));
      assert r.store == UpdateMentions(UpdateValues(st).value).store;
      QueuedSearchRegistered(st.store, d, st.tasks, r.tasks, r.query, r.store.triggers);
    }
  }

  /**
    The deferred-call queue `_onInput` leaves behind: when a trigger was detected, one
    search for the detected trigger character is appended.
   */
  lemma QueuedSearchRegistered(store: Store, d: Detection, before: seq<Task>, after: seq<Task>,
                               query: string, triggers: map<string, TriggerConfig>)
    requires triggers == store.triggers
    requires forall k :: k in store.triggerKeys ==> |k| == 1 && k in store.triggers
    requires d.index > -1 ==> d.triggerChar in store.triggerKeys && after == before + [DeferredSearch(query, d.triggerChar)]
    requires d.index <= -1 ==> after == before
    ensures |after| > |before| ==> after[|after| - 1].DeferredSearch? && after[|after| - 1].trigger in triggers
  {
  }

  /**
    Committing into a registered trigger's empty list lists exactly that
    mention, fires `mentionadd` with it, places the caret, and leaves
    `_val` and the overlay in sync with the new text.
   */
  lemma CommitIntoEmpty(st: State, t: string, m: Mention, newText: string, caret: nat)
    requires t in st.store.mentions && st.store.mentions[t] == [] && t in st.store.triggers
    requires Configured(st.store) && caret <= |newText|
    ensures var r := Commit(st, t, m, newText, caret);
      && r.store.mentions == st.store.mentions[t := [m]]
      && r.events == st.events + [MentionAdd([m], t)]
      && r.text == newText && r.selStart == caret && r.selEnd == caret
      && r.store.mentionKeys == st.store.mentionKeys && r.store.triggers == st.store.triggers
      && InSync(r)
  {
    var r := Commit(st, t, m, newText, caret);
    assert AppendUnique([], m) == [m];
    assert r.store.mentions == st.store.mentions[t := [m]];
    assert r.events == st.events + [MentionAdd([m], t)];
  }

  /** With a single, empty list, committing leaves exactly that mention listed. */
  lemma CommitIntoOnlyList(st: State, t: string, m: Mention, newText: string, caret: nat)
    requires st.store.mentions == map[t := []] && t in st.store.triggers && caret <= |newText|
    ensures Commit(st, t, m, newText, caret).store.mentions == map[t := [m]]
  {
    assert Configured(st.store);
    CommitIntoEmpty(st, t, m, newText, caret);
    assert st.store.mentions[t := [m]] == map[t := [m]];
  }

  /** No mention survives an empty text. */
  lemma PruneEmptyText(list: seq<Mention>)
    ensures PruneList(list, []) == []
  {
    var r := PruneList(list, []);
    forall m ensures !Keeps([], m) {
      if m.value != [] {
        assert forall i :: !MatchAt([], m.value, i);
      }
    }
  }

  /**
    Emptying the field of a component whose only list is non-empty fires
    one `mentionremove` carrying the empty list.
   */
  lemma ClearSingleList(st: State, t: string)
    requires st.store.mentionKeys == [t] && st.store.mentions.Keys == {t} && st.store.mentions[t] != []
    requires t in st.store.triggers
    ensures var r := OnInput(st.(text := [], selStart := 0, selEnd := 0));
      && r.events == st.events + [MentionRemove([], t)]
      && r.store.mentions == map[t := []]
  {
    var cleared := st.(text := [], selStart := 0, selEnd := 0);
    assert Configured(cleared.store);
    var rendered := UpdateValues(cleared).value;
    assert rendered.store == st.store && rendered.text == [];
    PruneSingleEmpty(st.store.mentions, t);
    RemovalSingle(t, st.store.mentions, map[t := []]);
  }

  lemma PruneSingleEmpty(mentions: map<string, seq<Mention>>, t: string)
    requires mentions.Keys == {t}
    ensures PrunedMentions(mentions, []) == map[t := []]
  {
    PruneEmptyText(mentions[t]);
  }

  lemma RemovalSingle(t: string, before: map<string, seq<Mention>>, after: map<string, seq<Mention>>)
    requires t in before && before[t] != [] && after == map[t := []]
    ensures RemovalEvents([t], before, after) == [MentionRemove([], t)]
  {
    assert [t][0] == t && [t][1..] == [];
  }

  /**
    With one trigger and nothing listed, committing a mention whose value
    occurs once in the new text makes `_val` that text with the value
    replaced by the trigger's syntax token.
   */
  lemma CommitRendersToken(st: State, t: string, m: Mention, pre: string, post: string, caret: nat)
    requires st.store.mentionKeys == [t] && st.store.mentions == map[t := []] && t in st.store.triggers
    requires m.value != [] && caret <= |pre + m.value + post|
    requires forall j :: j != |pre| ==> !MatchAt(pre + m.value + post, m.value, j)
    ensures Commit(st, t, m, pre + m.value + post, caret).val == pre + st.store.triggers[t].syntax(m) + post
  {
    var text := pre + m.value + post;
    var r := Commit(st, t, m, text, caret);
    CommitIntoOnlyList(st, t, m, text, caret);
    assert Configured(st.store);
    assert InSync(r) && r.text == text && r.store.mentionKeys == [t] && r.store.triggers == st.store.triggers;
    RenderSingleOccurrence(pre, post, t, m, st.store.triggers);
  }
}

=== FILE: scenarios.dfy ===
/**
  The behaviours the repository's own test suite exercises, replayed on
  the model with concrete inputs.
 */
module Scenarios {
  import opened Wrappers
  import opened JsString
  import opened Mentions
  import opened Sync
  import opened Detect
  import opened Component
  import opened Properties

  const SpongeName := "Spongebob Squarepants"

  /** The fetch result `{ name: "Spongebob Squarepants", id: 7 }` (no `value` of its own). */
  const SpongeResult := Mention(Num(7), SpongeName, "")

  /** The same record once picked: its `value` is its name. */
  const SpongeMention := Mention(Num(7), SpongeName, SpongeName)

  /** A host `fetch`, default formatters. */
  const HostFetch := TriggerSettings(true, None, None)

  /** A component with trigger `t` registered and an empty field. */
  function Mounted(minChars: int, t: string): (st: State)
    ensures Valid(st) && st.store.triggerKeys == [t] && st.store.mentionKeys == [t]
    ensures st.store.mentions == map[t := []] && st.store.triggers == map[t := Configure(HostFetch)]
    ensures st.text == [] && st.events == [] && st.tasks == [] && st.requests == [] && !st.list.visible
    ensures st.minChars == minChars && st.currentTrigger.None? && st.query == []
  {
    Add(Init([], 0, 0, minChars), t, HostFetch)
  }

  /** `_onInput` after the field was set to `text`, caret at the end, with no mentions listed. */
  lemma InputWithoutMentions(st: State, text: string)
    requires forall k :: k in st.store.mentions ==> st.store.mentions[k] == []
    ensures var typed := st.(text := text, selStart := |text|, selEnd := |text|);
      var r := OnInput(typed);
      && UpdateValues(typed).Success?
      && r.store == st.store && r.events == st.events
  {
    var typed := st.(text := text, selStart := |text|, selEnd := |text|);
    RenderWithoutMentions(text, st.store.mentionKeys, st.store.mentions, st.store.triggers);
    var rendered := UpdateValues(typed).value;
    var pruned := PrunedMentions(rendered.store.mentions, text);
    assert pruned == rendered.store.mentions;
    RemovalEventsNone(rendered.store.mentionKeys, rendered.store.mentions, pruned);
  }

  /** The last trigger in `buffer` is at `i`, preceded by a space. */
  lemma TriggerAfterSpace(buffer: string, t: string, i: nat, current: string)
    requires |t| == 1 && 0 < i < |buffer| && buffer[i..i + 1] == t && buffer[i - 1] == ' '
    requires forall j :: i < j < |buffer| ==> !MatchAt(buffer, t, j)
    ensures DetectTrigger(buffer, [t], current) == Detection(i, t)
  {
    assert MatchAt(buffer, t, i);
    assert LastIndexOf(buffer, t, |buffer|) == i;
    assert ClosestTrigger(buffer, [t]) == i;
    assert CharAt(buffer, i - 1) == " ";
    assert IsQueryBoundary(' ');
    assert StartsQuery(buffer, i);
    assert CharAt(buffer, i) == t;
  }

  /**
    A trigger glued to a word falls back to the last search's trigger: with
    `@` searched last and no `@` before the `#`, nothing is detected.
   */
  lemma GluedTriggerFallsBack()
    ensures DetectTrigger("#x#b", ["#"], "@").index == -1
  {
    var buffer := "#x#b";
    assert buffer[0] == '#' && buffer[1] == 'x' && buffer[3] == 'b';
    assert MatchAt(buffer, "#", 2) && !MatchAt(buffer, "#", 3);
    assert LastIndexOf(buffer, "#", |buffer|) == 2;
    assert ClosestTrigger(buffer, ["#"]) == 2;
    assert !StartsQuery(buffer, 2) by {
      assert CharAt(buffer, 1) == "x";
    }
    assert buffer[0..1] != "@" && buffer[1..2] != "@";
  }

  /**
    Typing text whose last trigger follows a space, with nothing listed yet,
    makes the rest of the text the query and queues a search for it.
   */
  lemma InputAfterTrigger(st: State, text: string, t: string, i: nat)
    requires forall k :: k in st.store.mentions ==> st.store.mentions[k] == []
    requires st.store.triggerKeys == [t]
    requires |t| == 1 && 0 < i < |text| && text[i..i + 1] == t && text[i - 1] == ' '
    requires forall j :: i < j < |text| ==> !MatchAt(text, t, j)
    ensures var r := OnInput(st.(text := text, selStart := |text|, selEnd := |text|));
      && r.query == text[i + 1..]
      && r.tasks == st.tasks + [DeferredSearch(text[i + 1..], t)]
      && r.store == st.store && r.events == st.events
  {
    var typed := st.(text := text, selStart := |text|, selEnd := |text|);
    InputWithoutMentions(st, text);
    assert Buffer(typed) == text;
    TriggerAfterSpace(text, t, i, CurrentTriggerText(typed));
    assert QueryAfter(text, i) == text[i + 1..];
  }

  /** Typing `hello @s` queues a search for `s` with trigger `@` (test "autocompleter list is correctly toggled"). */
  lemma TypedQuery(st: State, text: string)
    requires text == "hello @s"
    requires st.store.triggerKeys == ["@"] && st.store.mentions == map["@" := []] && st.tasks == []
    ensures var r := OnInput(st.(text := text, selStart := 8, selEnd := 8));
      && r.query == "s"
      && r.tasks == [DeferredSearch("s", "@")]
      && r.store == st.store && r.events == st.events
  {
    assert text[7..8] == "s";
    InputAfterTrigger(st, text, "@", 6);
    assert text[7..] == "s";
  }

  /** The answer to that search lists its one result under uid `@:7`, with its name as value. */
  lemma ListedSponge(st: State)
    requires |st.requests| == 1 && st.requests[0] == Request("s", "@", true)
    ensures var r := FetchCallback(st, 0, [SpongeResult]);
      && r.currentTrigger == Some("@")
      && r.list.visible && r.list.items == ["@:7"] && r.list.active == Some(0)
      && "@:7" in r.list.suggestions && r.list.suggestions["@:7"] == SpongeMention
  {
    assert IdText(Num(7)) == "7";
    assert Uid("@", SpongeResult) == "@:7";
    StoreSuggestionsLastWins(st.list.suggestions, "@", [SpongeResult], 0);
  }

  /** Picking the suggestion after `hello @s` replaces `@s` by the name and a space. */
  lemma SpliceHello(text: string)
    requires text == "hello @s"
    ensures MentionSplice(text, 8, "@", "s", SpongeName) == Splice("hello " + SpongeName + " ", 28)
  {
    assert MatchAt(text, "@s", 6);
    assert IndexOf(text, "@s", 6) == 6;
    assert Substr(text, 0, 6) == "hello ";
    assert Substr(text, 8, |text|) == [];
  }

  /** The default syntax token of the picked mention, in its line. */
  lemma SpongeToken()
    ensures DefaultSyntax(SpongeMention) == "@[Spongebob Squarepants](7)"
  {
    assert IdText(SpongeMention.id) == "7";
    TokenOf(SpongeMention, "7");
    SpongeTokenText();
  }

  /** The token's pieces spell the expected literal. */
  lemma SpongeTokenText()
    ensures "@[" + SpongeName + "](" + "7" + ")" == "@[Spongebob Squarepants](7)"
  {
  }

  /** The default token of a mention whose id prints as `id`. */
  lemma TokenOf(m: Mention, id: string)
    requires IdText(m.id) == id
    ensures DefaultSyntax(m) == "@[" + m.value + "](" + id + ")"
  {
  }

  /** The same token in its line. */
  lemma SpongeLine(token: string)
    requires token == "@[Spongebob Squarepants](7)"
    ensures "hello " + token + " " == "hello @[Spongebob Squarepants](7) "
  {
  }

  /** In `hello Spongebob Squarepants ` the name occurs once, after `hello `. */
  lemma SpongeOnce()
    ensures forall j :: j != 6 ==> !MatchAt("hello " + SpongeName + " ", SpongeName, j)
  {
    assert SpongeName[0] == 'S' && SpongeName[1] == 'p';
    OnlyMatch("hello ", SpongeName, " ");
  }

  /** The store of a component with trigger `@` registered (host fetch, default formatters) and nothing listed. */
  function AtStore(): Store {
    Store(["@"], map["@" := Configure(HostFetch)], ["@"], map["@" := []])
  }

  /** Clicking `@:7` after typing `hello @s` commits the mention into `hello Spongebob Squarepants `. */
  lemma ClickSplices(st: State, text: string)
    requires text == "hello @s"
    requires st.text == text && st.selEnd == 8 && st.query == "s" && st.currentTrigger == Some("@")
    requires "@:7" in st.list.suggestions && st.list.suggestions["@:7"] == SpongeMention
    ensures OnSuggestionClick(st, "@:7") == Commit(st, "@", SpongeMention, "hello " + SpongeName + " ", 28)
  {
    SpliceHello(text);
  }

  /** That commit lists the mention, fires `mentionadd`, and sets `_val` to the syntax text. */
  lemma CommitSponge(st: State, newText: string)
    requires newText == "hello " + SpongeName + " "
    requires st.store == AtStore() && st.events == []
    ensures var r := Commit(st, "@", SpongeMention, newText, 28);
      && r.events == [MentionAdd([SpongeMention], "@")]
      && r.text == newText && r.selStart == 28 && r.selEnd == 28
      && r.val == "hello " + DefaultSyntax(SpongeMention) + " "
      && r.store.mentions == map["@" := [SpongeMention]]
  {
    CommitIntoEmpty(st, "@", SpongeMention, newText, 28);
    CommitIntoOnlyList(st, "@", SpongeMention, newText, 28);
    SpongeOnce();
    CommitRendersToken(st, "@", SpongeMention, "hello ", " ", 28);
  }

  /**
    Clicking the listed suggestion (test "autocompleter triggers mentionadd
    event"): the text becomes `hello Spongebob Squarepants `, the caret goes
    after the space, `mentionadd` carries the one mention, and `val()` is
    the syntax text.
   */
  lemma ClickSponge(st: State, text: string)
    requires text == "hello @s"
    requires st.text == text && st.selEnd == 8 && st.query == "s" && st.currentTrigger == Some("@")
    requires st.store == AtStore() && st.events == []
    requires "@:7" in st.list.suggestions && st.list.suggestions["@:7"] == SpongeMention
    ensures var r := OnSuggestionClick(st, "@:7");
      && r.events == [MentionAdd([SpongeMention], "@")]
      && r.text == "hello " + SpongeName + " "
      && r.selStart == 28 && r.selEnd == 28
      && Val(r) == "hello @[Spongebob Squarepants](7) "
      && r.store.mentions == map["@" := [SpongeMention]]
  {
    ClickSplices(st, text);
    CommitSponge(st, "hello " + SpongeName + " ");
    SpongeToken();
    SpongeLine(DefaultSyntax(SpongeMention));
  }

  /** Emptying the field afterwards fires `mentionremove` with the empty list (test "autocompleter triggers mentionremove event"). */
  lemma ClearAfterMention(st: State)
    requires st.store.mentionKeys == ["@"] && st.store.mentions == map["@" := [SpongeMention]]
    requires "@" in st.store.triggers
    ensures var r := OnInput(st.(text := [], selStart := 0, selEnd := 0));
      r.events == st.events + [MentionRemove([], "@")]
  {
    ClearSingleList(st, "@");
  }

  /** The deferred search for `s` calls the host `fetch` with query `s` (test line "correct query passed"). */
  lemma SearchForS(st: State)
    requires st.tasks == [DeferredSearch("s", "@")] && st.minChars == DefaultMinChars
    requires st.store == AtStore() && st.requests == []
    ensures RunDeferred(st).requests == [Request("s", "@", true)]
    ensures RunDeferred(st).tasks == []
  {
  }

  /** Typing `hello :` makes the empty text after `:` the query. */
  lemma EmptyQueryTyped(st: State, text: string)
    requires text == "hello :"
    requires st.store.triggerKeys == [":"] && st.store.mentions == map[":" := []] && st.tasks == []
    ensures var typed := OnInput(st.(text := text, selStart := 7, selEnd := 7));
      && typed.query == [] && typed.tasks == [DeferredSearch([], ":")]
      && typed.store == st.store && typed.requests == st.requests && typed.minChars == st.minChars
  {
    assert text[6..7] == ":";
    InputAfterTrigger(st, text, ":", 6);
    assert text[7..] == [];
  }

  /**
    With `minChars: 0`, typing `hello :` searches with the empty query
    (test "autocompleter works with minChars: 0").
   */
  lemma EmptyQuerySearched(st: State, text: string)
    requires text == "hello :"
    requires st.store.triggerKeys == [":"] && st.store.mentions == map[":" := []]
    requires st.store.triggers == map[":" := Configure(HostFetch)]
    requires st.tasks == [] && st.requests == [] && st.minChars == 0
    ensures RunDeferred(OnInput(st.(text := text, selStart := 7, selEnd := 7))).requests == [Request([], ":", true)]
  {
    EmptyQueryTyped(st, text);
  }

  /** `reset` fires `mentionreset` once for the one registered trigger (test "reset triggers mentionreset event"). */
  lemma ResetFiresOnce(st: State)
    requires st.store.triggerKeys == ["@"] && st.events == []
    ensures Reset(st).events == [MentionReset("@")]
  {
  }

  /** `setMentions` fires `mentionadd` with the collection it was given (test "setMentions triggers mentionadd event"). */
  lemma SetMentionsFires(st: State)
    requires st.store == AtStore() && st.events == []
    ensures SetMentions(st, "@", [SpongeMention]).events == [MentionAdd([SpongeMention], "@")]
  {
  }
}

=== FILE: sync.dfy ===
/**
  The synchroniser (`updateValues`): from the raw text and the mention
  lists it derives the canonical syntax text and the overlay markup.
  Mentions are visited trigger by trigger in registration order and, within
  a trigger, in insertion order; each visit replaces every occurrence.
 */
module Sync {
  import opened Wrappers
  import opened JsString
  import opened Escape
  import opened Mentions

  /** One mention together with the trigger whose list holds it. */
  datatype Entry = Entry(trigger: string, mention: Mention)

  /** The mentions of one trigger, in list order. */
  function EntriesOf(k: string, list: seq<Mention>): (es: seq<Entry>)
    ensures |es| == |list|
    ensures forall i :: 0 <= i < |list| ==> es[i] == Entry(k, list[i])
  {
    seq(|list|, i requires 0 <= i < |list| => Entry(k, list[i]))
  }

  /** The visiting order of `_.each(this.mentions, …)` nested with `_.each(mentions, …)`. */
  function Entries(keys: seq<string>, mentions: map<string, seq<Mention>>): (es: seq<Entry>)
    decreases |keys|
    ensures forall e :: e in es ==> e.trigger in keys && e.trigger in mentions && e.mention in mentions[e.trigger]
    ensures forall k, m :: k in keys && k in mentions && m in mentions[k] ==> Entry(k, m) in es
    ensures (forall k :: k in mentions ==> mentions[k] == []) ==> es == []
  {
    if keys == [] then []
    else
      var head := if keys[0] in mentions then EntriesOf(keys[0], mentions[keys[0]]) else [];
      var es := head + Entries(keys[1..], mentions);
      forall k, m | k in keys && k in mentions && m in mentions[k] ensures Entry(k, m) in es {
        if k == keys[0] {
          var i :| 0 <= i < |mentions[k]| && mentions[k][i] == m;
          assert head[i] == Entry(k, m);
        } else {
          assert k in keys[1..];
        }
      }
      es
  }

  /**
    The visiting order is trigger by trigger in key order: the entries of
    two runs of keys are those of the first run followed by those of the second.
   */
  lemma {:induction false} EntriesConcat(a: seq<string>, b: seq<string>, mentions: map<string, seq<Mention>>)
    decreases |a|
    ensures Entries(a + b, mentions) == Entries(a, mentions) + Entries(b, mentions)
  {
    if a == [] {
      assert a + b == b;
    } else {
      assert (a + b)[0] == a[0] && (a + b)[1..] == a[1..] + b;
      EntriesConcat(a[1..], b, mentions);
    }
  }

  /** The entries of one trigger are its mentions in list order. */
  lemma EntriesOneKey(k: string, mentions: map<string, seq<Mention>>)
    requires k in mentions
    ensures Entries([k], mentions) == EntriesOf(k, mentions[k])
  {
    assert [k][0] == k && [k][1..] == [];
  }

  /** The trigger of the first entry that has no registered configuration, if any. */
  function MissingConfig(es: seq<Entry>, triggers: map<string, TriggerConfig>): (r: Option<string>)
    decreases |es|
    ensures r.None? <==> forall e :: e in es ==> e.trigger in triggers
    ensures r.Some? ==> r.value !in triggers && exists e :: e in es && e.trigger == r.value
  {
    if es == [] then None
    else if es[0].trigger !in triggers then Some(es[0].trigger)
    else MissingConfig(es[1..], triggers)
  }

  /** The first loop of `updateValues`: `split(value).join(syntax)` for each entry in turn. */
  function SyntaxPass(s: string, es: seq<Entry>, triggers: map<string, TriggerConfig>): string
    requires forall e :: e in es ==> e.trigger in triggers
    decreases |es|
  {
    if es == [] then s
    else
      var e := es[0];
      SyntaxPass(ReplaceAll(s, e.mention.value, triggers[e.trigger].syntax(e.mention)), es[1..], triggers)
  }

  /**
    The markup one entry contributes: the highlight template applied to a
    copy of the mention whose value is HTML-encoded.
   */
  function HighlightOf(cfg: TriggerConfig, m: Mention): string {
    cfg.highlight(m.(value := HtmlEncode(m.value)))
  }

  /** The second loop: each encoded syntax token is replaced by its highlight markup. */
  function HighlightPass(html: string, es: seq<Entry>, triggers: map<string, TriggerConfig>): string
    requires forall e :: e in es ==> e.trigger in triggers
    decreases |es|
  {
    if es == [] then html
    else
      var e := es[0];
      var cfg := triggers[e.trigger];
      HighlightPass(ReplaceAll(html, HtmlEncode(cfg.syntax(e.mention)), HighlightOf(cfg, e.mention)), es[1..], triggers)
  }

  /** The first pass visits the entries one after the other: two runs of entries compose. */
  lemma {:induction false} SyntaxPassConcat(s: string, a: seq<Entry>, b: seq<Entry>, triggers: map<string, TriggerConfig>)
    requires forall e :: e in a + b ==> e.trigger in triggers
    decreases |a|
    ensures forall e :: e in a ==> e.trigger in triggers
    ensures forall e :: e in b ==> e.trigger in triggers
    ensures SyntaxPass(s, a + b, triggers) == SyntaxPass(SyntaxPass(s, a, triggers), b, triggers)
  {
    assert forall e :: e in a ==> e in a + b;
    assert forall e :: e in b ==> e in a + b;
    if a == [] {
      assert a + b == b;
    } else {
      var e := a[0];
      assert (a + b)[0] == e && (a + b)[1..] == a[1..] + b;
      SyntaxPassConcat(ReplaceAll(s, e.mention.value, triggers[e.trigger].syntax(e.mention)), a[1..], b, triggers);
    }
  }

  /** The same for the second pass over the encoded text. */
  lemma {:induction false} HighlightPassConcat(html: string, a: seq<Entry>, b: seq<Entry>, triggers: map<string, TriggerConfig>)
    requires forall e :: e in a + b ==> e.trigger in triggers
    decreases |a|
    ensures forall e :: e in a ==> e.trigger in triggers
    ensures forall e :: e in b ==> e.trigger in triggers
    ensures HighlightPass(html, a + b, triggers) == HighlightPass(HighlightPass(html, a, triggers), b, triggers)
  {
    assert forall e :: e in a ==> e in a + b;
    assert forall e :: e in b ==> e in a + b;
    if a == [] {
      assert a + b == b;
    } else {
      var e := a[0];
      var cfg := triggers[e.trigger];
      assert (a + b)[0] == e && (a + b)[1..] == a[1..] + b;
      HighlightPassConcat(ReplaceAll(html, HtmlEncode(cfg.syntax(e.mention)), HighlightOf(cfg, e.mention)), a[1..], b, triggers);
    }
  }

  /** One entry of the second pass: its encoded token becomes its highlight markup everywhere. */
  lemma HighlightPassSingle(html: string, e: Entry, triggers: map<string, TriggerConfig>)
    requires e.trigger in triggers
    ensures var cfg := triggers[e.trigger];
      HighlightPass(html, [e], triggers) == ReplaceAll(html, HtmlEncode(cfg.syntax(e.mention)), HighlightOf(cfg, e.mention))
  {
    assert [e][0] == e && [e][1..] == [];
  }

  /** The two strings `updateValues` produces: `this._val` and the overlay's inner HTML. */
  datatype Rendered = Rendered(syntax: string, overlay: string)

  /**
    `updateValues`. It throws (here: fails with the trigger) when a listed
    mention's trigger has no registered configuration, before changing anything.
   */
  function Render(text: string, keys: seq<string>, mentions: map<string, seq<Mention>>,
                  triggers: map<string, TriggerConfig>): (r: Result<Rendered, string>)
    ensures r.Failure? <==> exists e :: e in Entries(keys, mentions) && e.trigger !in triggers
    ensures r.Failure? <==> exists k :: k in keys && k in mentions && mentions[k] != [] && k !in triggers
    ensures r.Failure? ==> r.error !in triggers && r.error in keys
    ensures r.Failure? ==> r.error in mentions && mentions[r.error] != []
    ensures r.Success? ==> |r.value.overlay| >= 1 && r.value.overlay[|r.value.overlay| - 1] == '\n'
  {
    var es := Entries(keys, mentions);
    UnregisteredEntry(keys, mentions, triggers);
    match MissingConfig(es, triggers)
    case Some(t) => Failure(t)
    case None =>
      var syntax := SyntaxPass(text, es, triggers);
      Success(Rendered(syntax, HighlightPass(HtmlEncode(syntax), es, triggers) + "\n"))
  }

  /** Some visited mention is unregistered exactly when some listed, non-empty list is. */
  lemma UnregisteredEntry(keys: seq<string>, mentions: map<string, seq<Mention>>, triggers: map<string, TriggerConfig>)
    ensures (exists e :: e in Entries(keys, mentions) && e.trigger !in triggers)
        <==> exists k :: k in keys && k in mentions && mentions[k] != [] && k !in triggers
  {
    var es := Entries(keys, mentions);
    if exists k :: k in keys && k in mentions && mentions[k] != [] && k !in triggers {
      var k :| k in keys && k in mentions && mentions[k] != [] && k !in triggers;
      assert mentions[k][0] in mentions[k];
      assert Entry(k, mentions[k][0]) in es;
    }
    if exists e :: e in es && e.trigger !in triggers {
      var e :| e in es && e.trigger !in triggers;
      assert e.mention in mentions[e.trigger];
    }
  }

  /**
    Without mentions the syntax text is the raw text, and the overlay is
    the encoded raw text plus a newline, which decodes back to the raw text.
   */
  lemma RenderWithoutMentions(text: string, keys: seq<string>, mentions: map<string, seq<Mention>>,
                              triggers: map<string, TriggerConfig>)
    requires forall k :: k in mentions ==> mentions[k] == []
    ensures Render(text, keys, mentions, triggers) == Success(Rendered(text, HtmlEncode(text) + "\n"))
    ensures HtmlDecode(Render(text, keys, mentions, triggers).value.overlay[..|HtmlEncode(text)|]) == text
  {
    var overlay := HtmlEncode(text) + "\n";
    assert overlay[..|HtmlEncode(text)|] == HtmlEncode(text);
    DecodeEncode(text);
  }

  /** Mentions whose values occur nowhere leave the text as it is. */
  lemma {:induction false} SyntaxPassAbsent(s: string, es: seq<Entry>, triggers: map<string, TriggerConfig>)
    requires forall e :: e in es ==> e.trigger in triggers
    requires forall e :: e in es ==> !Contains(s, e.mention.value)
    decreases |es|
    ensures SyntaxPass(s, es, triggers) == s
  {
    if es != [] {
      ReplaceAllAbsent(s, es[0].mention.value, triggers[es[0].trigger].syntax(es[0].mention));
      assert forall e :: e in es[1..] ==> e in es;
      SyntaxPassAbsent(s, es[1..], triggers);
    }
  }

  lemma EntriesSingle(k: string, m: Mention)
    ensures Entries([k], map[k := [m]]) == [Entry(k, m)]
  {
    var ms := map[k := [m]];
    assert [k][1..] == [] && [k][0] == k;
    assert k in ms && ms[k] == [m];
    assert Entries([], ms) == [];
    assert EntriesOf(k, [m]) == [Entry(k, m)];
  }

  lemma SyntaxPassSingle(text: string, e: Entry, triggers: map<string, TriggerConfig>)
    requires e.trigger in triggers
    ensures SyntaxPass(text, [e], triggers) == ReplaceAll(text, e.mention.value, triggers[e.trigger].syntax(e.mention))
  {
    assert [e][0] == e && [e][1..] == [];
  }

  /**
    With a single mention listed, the syntax text is the raw text with every
    occurrence of its value replaced by its syntax token; when the value
    occurs, the token occurs in the result.
   */
  lemma RenderOneMention(text: string, k: string, m: Mention, triggers: map<string, TriggerConfig>)
    requires k in triggers
    ensures var r := Render(text, [k], map[k := [m]], triggers);
      && r.Success?
      && r.value.syntax == ReplaceAll(text, m.value, triggers[k].syntax(m))
      && (m.value != [] && Contains(text, m.value) ==> Contains(r.value.syntax, triggers[k].syntax(m)))
  {
    EntriesSingle(k, m);
    SyntaxPassSingle(text, Entry(k, m), triggers);
    assert MissingConfig([Entry(k, m)], triggers).None?;
    if m.value != [] && Contains(text, m.value) {
      ReplaceAllIntroduces(text, m.value, triggers[k].syntax(m));
    }
  }

  /**
    A single listed mention whose value occurs exactly once turns into its
    syntax token in place, the text around it unchanged.
   */
  lemma RenderSingleOccurrence(pre: string, post: string, k: string, m: Mention, triggers: map<string, TriggerConfig>)
    requires k in triggers && m.value != []
    requires forall j :: j != |pre| ==> !MatchAt(pre + m.value + post, m.value, j)
    ensures var r := Render(pre + m.value + post, [k], map[k := [m]], triggers);
      r.Success? && r.value.syntax == pre + triggers[k].syntax(m) + post
  {
    RenderOneMention(pre + m.value + post, k, m, triggers);
    ReplaceAllOnce(pre, m.value, post, triggers[k].syntax(m));
  }

  /** Escaping works character by character, so it distributes over concatenation. */
  lemma {:induction false} EncodeConcat(a: string, b: string)
    decreases |a|
    ensures HtmlEncode(a + b) == HtmlEncode(a) + HtmlEncode(b)
  {
    if a != [] {
      assert (a + b)[0] == a[0] && (a + b)[1..] == a[1..] + b;
      EncodeConcat(a[1..], b);
    } else {
      assert a + b == b;
    }
  }

  /** No character of `s` is rewritten by the escape table. */
  predicate Plain(s: string) {
    forall i :: 0 <= i < |s| ==> EscapeChar(s[i]) == [s[i]]
  }

  /** Text without characters from the escape table is its own encoding. */
  lemma {:induction false} EncodePlain(s: string)
    decreases |s|
    requires Plain(s)
    ensures HtmlEncode(s) == s
  {
    if s != [] {
      assert Plain(s[1..]) by {
        forall i | 0 <= i < |s[1..]| ensures EscapeChar(s[1..][i]) == [s[1..][i]] {
          assert s[1..][i] == s[i + 1];
        }
      }
      EncodePlain(s[1..]);
      assert s == [s[0]] + s[1..];
    }
  }

  lemma PlainDelimiters()
    ensures Plain("@[") && Plain("](") && Plain(")")
  {
  }

  /** Encoding a token built from plain delimiters and two fields encodes only the fields. */
  lemma EncodeFields(a: string, x: string, b: string, y: string, c: string)
    requires Plain(a) && Plain(b) && Plain(c)
    ensures HtmlEncode(a + x + b + y + c) == a + HtmlEncode(x) + b + HtmlEncode(y) + c
  {
    var head, tail := a + x + b, y + c;
    assert a + x + b + y + c == head + tail;
    EncodeConcat(head, tail);
    EncodeBetween(a, x, b);
    EncodeConcat(y, c);
    EncodePlain(c);
    var ex, ey := HtmlEncode(x), HtmlEncode(y);
    assert (a + ex + b) + (ey + c) == a + ex + b + ey + c;
  }

  /** Encoding `pre + x + post` for plain `pre` and `post` encodes only `x`. */
  lemma EncodeBetween(pre: string, x: string, post: string)
    requires Plain(pre) && Plain(post)
    ensures HtmlEncode(pre + x + post) == pre + HtmlEncode(x) + post
  {
    EncodePlain(pre);
    EncodePlain(post);
    EncodeConcat(pre + x, post);
    EncodeConcat(pre, x);
  }

  /**
    With the default formatters, the token the overlay pass looks for is
    the encoded syntax token, `@[` + encoded value + `](` + encoded id + `)`.
   */
  lemma DefaultTokenEncoded(m: Mention)
    ensures HtmlEncode(DefaultSyntax(m)) == "@[" + HtmlEncode(m.value) + "](" + HtmlEncode(IdText(m.id)) + ")"
  {
    PlainDelimiters();
    EncodeFields("@[", m.value, "](", IdText(m.id), ")");
  }
}

=== FILE: wrappers.dfy ===
/** Optional values and results, used for the component's `undefined` lookups and thrown errors. */
module Wrappers {

  datatype Option<+T> = None | Some(value: T)

  datatype Result<+R, +E> = Success(value: R) | Failure(error: E)
}
